=== FILE: README.md ===
# Chat front end core, modelled in Dafny

This project models the logic at the centre of a browser chat client for a locally hosted language model. The client is written in TypeScript and React. The model covers:

- **Token estimator** (`TokenEstimator`). Gives each UTF-16 code unit a weight and sums the weights with a ceiling. Adds the per-message and system-prompt overheads and the fixed cost of an image. Sorts a total into safe / warning / danger / over against the input limit and rounds it to a percentage. Loads the limits from the server once, with defaults.
- **API layer** (`Api`, `StreamDecoder`). Treats a 401 or 403 response as an authentication error, falling back to a default detail. Decodes the streamed completion: a carry-over buffer is split on line feeds, `data: ` lines are kept, the `[DONE]` sentinel is skipped, and content fragments are emitted in order.
- **Chat session** (`ChatSession`). The application shell's state: messages, conversations, the selected conversation, the API key, the user name and the loading flag. It covers sending a message, streaming the reply into the last message, the error callback, logout, new chat and deleting a conversation.
- **Admin panel** (`AdminDashboard`). The user search filter, the head counts and the footer, which rows offer actions, the confirmation dialog, and the state after loading the list or carrying out an action.
- **Settings form** (`PasswordForm`). The password-change validators, the submit guard and the form after the request settles.
- **Chat input** (`ChatInput`). The submit guard and the send button's disabled state.

Strings are sequences of UTF-16 code units (`Text.Str`), because JavaScript's `length`, `charCodeAt`, `slice` and `trim` work on code units. `trim` removes exactly the ECMAScript white-space and line-terminator code units. Status codes are rendered in decimal by `Text.Decimal`, which is proved to read back to the same number.

Every network call, JSON parse and thrown value enters a model as a parameter:
- a fetch result;
- an `Extractor` that stands for `JSON.parse(data).choices[0]?.delta?.content`;
- the id of a created conversation, or none;
- the outcome of a stream;
- what an admin call returned or threw.

Each handler is a pure function from the state before to the state after. `StreamDecoder.ReadLoop` is written as a loop over chunks, the way the client reads its stream.

The token weights 1.4, 0.3 and 0.5 are modelled as exact tenths (14, 3 and 5), and the estimate is the ceiling of the sum divided by ten. The status thresholds are integer cross-multiplications. `TokenEstimator.TokenStatusFor` is proved equal to a reference written over real numbers (`StatusOfRatio`).

## Model

| member | source | states |
|---|---|---|
| TokenEstimator.DeriveConfig | src/lib/tokenEstimator.ts:34-37 | a missing model length or output reserve takes 4096 or 512; a missing input limit is model length minus reserve; present fields are used as given; the result is marked loaded |
| TokenEstimator.FetchTokenConfig | src/lib/tokenEstimator.ts:28-43 | once loaded, nothing changes; it becomes loaded exactly on an ok response with a body; failures and non-ok responses keep the previous configuration |
| TokenEstimator.LoadedConfigIsStable | src/lib/tokenEstimator.ts:29 | after loading, any further sequence of fetches leaves the configuration unchanged |
| TokenEstimator.FirstSuccessWins | src/lib/tokenEstimator.ts:28-43 | over a sequence of fetches, the configuration is derived from the first successful response |
| TokenEstimator.NoSuccessKeepsConfig | src/lib/tokenEstimator.ts:39-42 | if no fetch succeeds, the defaults stay in force |
| TokenEstimator.DefaultLimit | src/lib/tokenEstimator.ts:15-22 | before any load the input limit is 3584, and an empty server answer also yields 3584 |
| TokenEstimator.ClassesPartition | src/lib/tokenEstimator.ts:81-89 | every code unit falls in exactly one class (CJK, ASCII letter, other); ASCII letters are never CJK; the Hangul compatibility range adds nothing to the CJK ranges |
| TokenEstimator.WeightTenths | src/lib/tokenEstimator.ts:107-117 | a CJK code unit weighs 1.4 tokens, an ASCII letter 0.3 and anything else 0.5 |
| TokenEstimator.EstimateTokens | src/lib/tokenEstimator.ts:101-121 | the empty text estimates to 0; the estimate is the least integer not below the summed weights |
| TokenEstimator.SumTenthsByClass | src/lib/tokenEstimator.ts:104-118 | the summed weight is 1.4 per CJK code unit plus 0.3 per ASCII letter plus 0.5 per other unit, and the three classes partition the text |
| TokenEstimator.SumTenthsAppend | src/lib/tokenEstimator.ts:104-118 | the summed weight of a concatenation is the sum of the parts' weights |
| TokenEstimator.EstimateBounds | src/lib/tokenEstimator.ts:104-120 | a text of n code units estimates between ceil(0.3n) and ceil(1.4n) |
| TokenEstimator.EstimateBoundsReached | src/lib/tokenEstimator.ts:104-120 | both bounds are reached: n ASCII letters estimate to ceil(0.3n) and n Hangul syllables to ceil(1.4n) |
| TokenEstimator.EstimateExamples | src/lib/tokenEstimator.ts:101-121 | "AB" estimates to 1, two Hangul syllables to 3, "12" to 1 and the empty text to 0 |
| TokenEstimator.EstimateMonotoneSubadditive | src/lib/tokenEstimator.ts:104-120 | extending a text never lowers its estimate, and the estimate of a concatenation is at most the sum of the estimates |
| TokenEstimator.EstimateStep | src/lib/tokenEstimator.ts:105-118 | one more code unit raises the estimate by 0, 1 or 2 |
| TokenEstimator.PartTokens | src/lib/tokenEstimator.ts:125-134 | a text part costs its text's estimate, an image exactly 1225, any other kind 0 |
| TokenEstimator.PartsWithImage | src/lib/tokenEstimator.ts:125-154 | adding an image part to a message adds exactly 1225 |
| TokenEstimator.MessagesTokens | src/lib/tokenEstimator.ts:142-159 | a message list costs at least 16 plus 10 per message |
| TokenEstimator.MessagesTokensAppend | src/lib/tokenEstimator.ts:142-159 | the system baseline is counted once: two lists together cost their sum minus 16 |
| TokenEstimator.AppendMessage | src/lib/tokenEstimator.ts:145-156 | appending a message adds 10 plus its content's estimate, so at least 10 |
| TokenEstimator.TokenStatusFor | src/lib/tokenEstimator.ts:169-176 | for a positive limit, the status equals the bucket of the exact ratio with strict thresholds 0.7, 0.9 and 1; a zero limit is over exactly when tokens are positive; a negative limit is safe |
| TokenEstimator.RatioComparisons | src/lib/tokenEstimator.ts:171-174 | each ratio threshold test agrees with its integer cross-multiplication, so exactly 70%, 90% and 100% fall in the lower bucket |
| TokenEstimator.StatusMonotone | src/lib/tokenEstimator.ts:169-176 | more tokens never give a lower status |
| TokenEstimator.TokenPercent | src/lib/tokenEstimator.ts:182-185 | the percentage is within one half of 100·tokens/limit, so it is the rounded ratio and may exceed 100 |
| TokenEstimator.OverMeansFullPercent | src/lib/tokenEstimator.ts:169-185 | an over-limit status always shows at least 100% |
| Api.AuthDetail | src/lib/api.ts:27-31 | the detail is the body's non-empty `detail`, or the default text when the body does not parse or its detail is missing or empty |
| Api.ThrowIfAuthError | src/lib/api.ts:12-36 | an error is raised exactly for 401 and 403; it is an authentication error with the response's status, and its message is its detail |
| Api.AuthErrorFallback | src/lib/api.ts:27-31 | the default detail appears exactly when the server gave none usable, or sent the default text itself |
| StreamDecoder.SplitLines | src/lib/api.ts:165-168 | the buffer splits into complete lines and a rest without line feeds, and the lines, each followed by a line feed, then the rest, give back the buffer |
| StreamDecoder.SplitLinesUnique | src/lib/api.ts:167-168 | the split is the only decomposition of its kind: splitting terminated lines plus a rest returns exactly those lines and rest |
| StreamDecoder.SplitAppend | src/lib/api.ts:165-168 | appending a chunk leaves lines already complete untouched and splits only the carried rest plus the chunk |
| StreamDecoder.DataPayload | src/lib/api.ts:171-174 | a payload exists exactly when the trimmed line starts with `data: `, and it is what follows the prefix |
| StreamDecoder.LineFragment | src/lib/api.ts:170-183 | blank lines, lines without a payload, `[DONE]` and payloads with no content give nothing; a data line other than `[DONE]` whose content is non-empty emits exactly that content, and nothing else is ever emitted |
| StreamDecoder.NonDataLineSkipped | src/lib/api.ts:171-172 | a line that does not start with `data: ` once trimmed emits nothing |
| StreamDecoder.Fragments | src/lib/api.ts:170-184 | every emitted fragment is non-empty, and there are at most as many as lines |
| StreamDecoder.FragmentsOfLine | src/lib/api.ts:170-184 | a single line emits its own fragment when it has one, and nothing otherwise |
| StreamDecoder.FragmentsMembership | src/lib/api.ts:170-184 | a fragment is emitted exactly when some line of the input yields it |
| StreamDecoder.FragmentsAppend | src/lib/api.ts:170-184 | fragments of consecutive line groups are emitted in line order, and a line that yields nothing does not stop later ones |
| StreamDecoder.Feed | src/lib/api.ts:164-168 | after a chunk the buffer holds no line feed, and the processed lines plus the buffer are the old buffer plus the chunk |
| StreamDecoder.RunMatchesLines | src/lib/api.ts:158-185 | after any chunks the buffer is the text after the last line feed of their concatenation, and the fragments are those of its complete lines |
| StreamDecoder.ChunkingIrrelevant | src/lib/api.ts:158-185 | two chunkings of the same text give the same buffer and the same fragments |
| StreamDecoder.EmitLines | src/lib/api.ts:170-184 | the line loop emits exactly the fragments of its lines, in order |
| StreamDecoder.ReadLoop | src/lib/api.ts:156-185 | the read loop ends with a line-feed-free buffer that is what follows the complete lines of the input, and it has emitted exactly their non-empty fragments |
| StreamDecoder.HttpErrorMessage | src/lib/api.ts:149-152 | a failed response's message starts with `API Error: ` and contains the decimal status and the response text |
| StreamDecoder.StreamChat | src/lib/api.ts:125-190 | the auth check comes before the ok check, and either failure emits nothing; a missing body fails; a complete stream finishes with its fragments and drops an unterminated tail; a stream cut off keeps what arrived and fails; finishing implies an ok response |
| ChatSession.ConversationTitle | src/App.tsx:209 | a content of at most 20 code units is its own title; a longer one becomes its first 20 code units followed by `...` |
| ChatSession.PerformLogout | src/App.tsx:266-274 | the API key, user name, messages, conversations and current conversation are all cleared |
| ChatSession.Logout | src/App.tsx:276-280 | logging out happens only when the user confirms |
| ChatSession.NewChat | src/App.tsx:282-285 | messages and the current conversation are cleared; the conversation list and login are untouched |
| ChatSession.DeleteConversation | src/App.tsx:287-300 | on success the conversations with that id are removed; the current conversation and messages are cleared only when that id was current; on cancel or failure nothing changes |
| ChatSession.DeleteRemovesExactly | src/App.tsx:292 | deletion keeps every other conversation as often as it occurred, in its order, and removes every one with the id |
| ChatSession.BeginSend | src/App.tsx:193-204 | without an API key nothing happens; otherwise the user message and then an empty assistant placeholder are appended and loading starts |
| ChatSession.AttachConversation | src/App.tsx:206-213 | a newly created conversation is put first in the list, titled from the content, and selected |
| ChatSession.ShowReply | src/App.tsx:229-235 | the last message becomes the assistant's reply so far; earlier messages and the length are unchanged |
| ChatSession.StreamedReply | src/App.tsx:227-236 | after fragments c1…ck the last message is the assistant's c1+…+ck, and nothing else changes |
| ChatSession.ReplyAfterPlaceholder | src/App.tsx:203-236 | streaming into the placeholder leaves the concatenated reply in its place |
| ChatSession.OnStreamErrorAsWritten | src/App.tsx:244-255 | loading stops; a message mentioning 401 or 403 logs out and leaves only the error line; any other keeps the session and appends `Error: ` plus the message |
| ChatSession.AuthErrorKeepsSessionAsWritten | src/App.tsx:248-250 | an authentication error carrying the default detail does not log the user out |
| ChatSession.OnStreamError | src/App.tsx:244-255 | loading stops; an authentication error always ends the session; every error appends `Error: ` plus its message |
| ChatSession.OnStreamErrorAgrees | src/App.tsx:244-255 | the corrected callback acts as the written one on every error whose message mentions 401 or 403 exactly when it is an authentication error |
| ChatSession.SendMessageAsWritten | src/App.tsx:193-257 | without an API key nothing happens; a missing or empty current id makes the handler create a conversation; on the streaming paths the whole resulting session is stated, with a logout exactly when the error mentions 401 or 403; when creating the conversation fails, the user message and placeholder stay and the session remains loading |
| ChatSession.CreateFailureStaysLoadingAsWritten | src/App.tsx:214-217 | a failed conversation creation leaves the session loading |
| ChatSession.SendMessage | src/App.tsx:193-257 | every send with an API key ends not loading; a missing or empty current id makes the handler create a conversation; the whole resulting session is stated on each path: a completed reply follows the user message, a failed stream keeps what arrived and adds the error line, and the conversation list, the selection and the login change only by the created conversation; an authentication failure logs out |
| ChatSession.EmptyIdCreatesConversation | src/App.tsx:206-213 | a selected conversation whose id is the empty string counts as none: a new conversation is created, put first and selected |
| ChatSession.SendReturnsToIdle | src/App.tsx:193-257 | from an idle session a send returns to idle, while the as-written handler stays loading after a failed creation |
| ChatSession.SendAgreesAsWritten | src/App.tsx:193-257 | when the conversation exists or was created, and any error mentions 401 or 403 exactly when it is an authentication error, the corrected send is the send as written |
| ChatSession.LoggedOutCannotSend | src/App.tsx:193-280 | after a logout, confirmed or direct, beginning or completing a send leaves the logged-out session unchanged |
| ChatSession.NewChatThenSend | src/App.tsx:193-285 | after a new chat, a completed first send lists the created conversation first, selects it, and holds exactly the user message and its reply |
| AdminDashboard.Needle | src/components/AdminDashboard.tsx:422-423 | the lower-cased, trimmed query is empty exactly when the query is blank |
| AdminDashboard.FilterUsers | src/components/AdminDashboard.tsx:421-428 | a blank query shows every user; otherwise only users whose lower-cased username or role includes the needle are shown |
| AdminDashboard.FilterUsersExact | src/components/AdminDashboard.tsx:421-428 | the filter keeps exactly the matching users, with their multiplicity, as an order-preserving subsequence |
| AdminDashboard.ComputeStats | src/components/AdminDashboard.tsx:431-437 | total is the number of users; active and admins count those users and never exceed total; inactive, computed as total minus active, is the number of inactive users |
| AdminDashboard.StudentsAreActionRows | src/components/AdminDashboard.tsx:589-629 | the footer's student count is exactly the number of users in the loaded list whose rows would offer actions |
| AdminDashboard.RenderedActionRows | src/components/AdminDashboard.tsx:563-629 | under a search the rendered rows offering actions never exceed the footer's student count, and for a blank search they equal it |
| AdminDashboard.FooterFor | src/components/AdminDashboard.tsx:620-625 | a non-empty raw query shows the filtered count out of the total; an empty one shows the total |
| AdminDashboard.BlankQueryFooter | src/components/AdminDashboard.tsx:421-625 | a query of spaces shows every user but is reported as a search result |
| AdminDashboard.VariantOf | src/components/AdminDashboard.tsx:647-651 | force logout is a warning, deactivation is a danger, everything else is info |
| AdminDashboard.ActionLabel | src/components/AdminDashboard.tsx:462-464 | the label is force logout, deactivate or activate exactly for the matching action |
| AdminDashboard.VariantMatchesLabel | src/components/AdminDashboard.tsx:647-682 | the dialog's colour and its button label always agree |
| AdminDashboard.ForceLogoutRequest | src/components/AdminDashboard.tsx:441-651 | a row's force-logout request names that user and is shown as a warning under the force-logout label |
| AdminDashboard.ToggleFollowsState | src/components/AdminDashboard.tsx:445-447 | a toggle requested from a row deactivates exactly the users that are active |
| AdminDashboard.FetchUsers | src/components/AdminDashboard.tsx:395-411 | loading ends; success replaces the list and lifts access-denied; a 403 authentication error sets access-denied; any other failure keeps the list and shows its message, or a fixed text for a non-Error |
| AdminDashboard.FetchFailureKinds | src/components/AdminDashboard.tsx:403-407 | a failed load shows access-denied exactly for a 403 or when it was already shown, and a 403 leaves no error banner |
| AdminDashboard.OpenPanel | src/components/AdminDashboard.tsx:413-418 | opening with a token loads the list and clears the search; otherwise nothing changes |
| AdminDashboard.OpenPanelShowsAll | src/components/AdminDashboard.tsx:413-428 | a freshly opened panel's filter keeps every loaded user and its footer shows the total only |
| AdminDashboard.ActionFailure | src/components/AdminDashboard.tsx:461-465 | a failed action shows the error's message, or the action's label followed by the failure suffix |
| AdminDashboard.ExecuteConfirmAction | src/components/AdminDashboard.tsx:449-467 | with nothing pending nothing happens and no call is made; otherwise the pending action is cleared and its call issued; success reloads the list, failure shows the message |
| AdminDashboard.ExecuteAtMostOnce | src/components/AdminDashboard.tsx:450-452 | executing twice in a row issues at most one call |
| AdminDashboard.CancelConfirm | src/components/AdminDashboard.tsx:686 | cancelling clears the pending action and nothing else |
| AdminDashboard.CancelledActionNotExecuted | src/components/AdminDashboard.tsx:449-686 | confirming after a cancel issues no call and changes nothing |
| PasswordForm.CanSubmitExactly | src/components/SettingsModal.tsx:257-259 | the form can be submitted exactly when the current password is given, the new one has 1 to 12 code units and equals the confirmation, and nothing is loading; over the limit it cannot |
| PasswordForm.CompleteSubmit | src/components/SettingsModal.tsx:265-286 | loading ends; success clears the three fields and shows the success text, and replaces the token only with a present non-empty one; failure keeps the fields and shows the error's message or the fixed failure text |
| PasswordForm.Submit | src/components/SettingsModal.tsx:261-264 | submitting a form that cannot be submitted changes nothing |
| PasswordForm.SubmitOutcome | src/components/SettingsModal.tsx:261-286 | after a success the form cannot be resubmitted, and after a failure it can be with the same input |
| PasswordForm.Open | src/components/SettingsModal.tsx:241-253 | opening with a token resets the three fields, the three visibility flags and the status message |
| PasswordForm.OpenedFormBlocked | src/components/SettingsModal.tsx:241-259 | a freshly opened form cannot be submitted |
| ChatInput.HandleSubmit | src/components/ChatInterface.tsx:148-153 | a blank input or a loading reply is ignored; otherwise the untrimmed input is sent once and the box is cleared |
| ChatInput.ButtonMatchesHandler | src/components/ChatInterface.tsx:148-197 | the send button is disabled exactly when the handler would ignore a submit, and nothing blank is ever sent |
| ChatInput.SubmitOnce | src/components/ChatInterface.tsx:151-152 | two submits in a row send at most once |
| Text.Trim | src/lib/api.ts:171 | the trimmed string is an infix of the string with only white space on either side of it; it neither starts nor ends with white space, and it is empty exactly when the string is all white space |
| Text.TrimUnique | src/lib/api.ts:171 | any string that is empty or has non-white ends is the trim of itself padded with white space on either side |
| Text.TrimIdempotent | src/lib/api.ts:171 | trimming twice gives the same as trimming once |
| Text.DecimalRoundTrip | src/lib/api.ts:151 | the decimal rendering of a status reads back as that status |

## Left out

- The settings modal's wiring. App.tsx:390-395 passes `apiKey` and `username`, but the modal's props (SettingsModal.tsx:7-13) are `jwt`, `username` and `onJwtUpdate`. As wired, `jwt` is undefined, so the reset under `isOpen && jwt` (SettingsModal.tsx:242) never runs, and `changePassword` (SettingsModal.tsx:267) receives no token. `PasswordForm` models the component as if it were given the token.
- Network I/O. This covers `fetch`, the endpoint wrappers (`apiFetch`, `verifyToken`, conversation and message CRUD, `saveMessage`, the admin calls, `changePassword`, `createConversation`) and the login request. A model sees only their results, as parameters.
- `JSON.parse` of a stream payload. It is the uninterpreted `StreamDecoder.Extractor`, which returns the content or nothing.
- `TextDecoder`. Chunks are already code-unit strings.
- A truthy `detail` that is not a string. The model's body detail is a string or absent.
- `toLowerCase`. Only ASCII letters are lower-cased (`Text.Lower`). Other letters, and the length changes full Unicode lower-casing can cause, are not modelled.
- Floating point. Weights are exact tenths and ratios are exact. The client sums IEEE doubles, so its `Math.ceil` can come out one higher: forty ASCII letters sum to 12.000000000000007 in doubles, so the client shows 13 where `EstimateTokens` gives 12. Likewise `Math.round` at tokenEstimator.ts:184 can drift below a half: 23 tokens against a limit of 40 give (23/40)·100 = 57.49999999999999, so the client shows 57 where the exact rounding of `TokenPercent` gives 58. `Math.round` of a negative half is not modelled either.
- TokenEstimator.TokenPercent: requires a positive limit. For zero or negative limits the client divides by zero or by a negative number and shows `Infinity`, `NaN` or a negative value.
- Whether a thrown value is an `Error`. It is the datatype `Api.Thrown`. The stream callback's wrapping of non-Error throws as `Unknown error` is taken as already applied.
- React scheduling. State setters are applied in program order. The interleavings of `await` with other handlers and re-renders are not modelled, and neither is the hook-order rule.
- The server's echo of a created conversation. `createConversation(apiKey, title, model)` sends no id: the id the server returns is taken as given, and the title it returns is assumed to echo the one sent.
- `handleLogin`, `handleSelectConversation`, `verifyToken` at start-up, and the `localStorage` writes. They are storage and I/O.
- The confirmation dialog component, the login form, the `window.fetch` patch, the build configuration, styling and date formatting. They are presentation or configuration.
- The admin panel's `loading`-dependent rendering. Only the state is modelled, not what is drawn.

## Findings

| source | as written | input that shows it | evidently intended | confidence | as-written member | corrected member |
|---|---|---|---|---|---|---|
| src/App.tsx:248-250 | the stream error callback logs out only when `error.message` contains `401` or `403`, but an `AuthError`'s message is the server's detail, which need not mention the status | a 401 response whose body has no `detail`: the message is `인증에 실패했습니다.`, which contains neither code, so the user stays logged in with an expired token | log out on every authentication error | high (not executed) | ChatSession.AuthErrorKeepsSessionAsWritten | ChatSession.OnStreamError |
| src/App.tsx:214-217 | when creating the conversation throws, the send handler returns without clearing `isLoading` | no selected conversation and a `createConversation` failure: `isLoading` stays true, so the input box and send button stay disabled and every later submit is ignored | end the loading state on this path as on the others | high (not executed) | ChatSession.CreateFailureStaysLoadingAsWritten | ChatSession.SendMessage |

=== FILE: admin_dashboard.dfy ===
/** The administrator's user panel: the search filter over the user list,
    the head-count statistics and footer, which rows offer actions, the
    confirmation dialog for a pending action, and the state changes of
    loading the list and of carrying out a confirmed action. The results of
    the admin API calls are parameters. */
module AdminDashboard {
  import opened Prelude
  import opened Text
  import opened Api

  /** "admin" */
  const AdminRole: Str := [0x61, 0x64, 0x6D, 0x69, 0x6E]
  /** "사용자 목록을 불러올 수 없습니다." (the user list cannot be loaded) */
  const ListUnavailable: Str := [0xC0AC, 0xC6A9, 0xC790, 0x20, 0xBAA9, 0xB85D, 0xC744, 0x20, 0xBD88, 0xB7EC, 0xC62C, 0x20, 0xC218, 0x20, 0xC5C6, 0xC2B5, 0xB2C8, 0xB2E4, 0x2E]
  /** "강제 로그아웃" (force logout) */
  const ForceLogoutLabel: Str := [0xAC15, 0xC81C, 0x20, 0xB85C, 0xADF8, 0xC544, 0xC6C3]
  /** "비활성화" (deactivate) */
  const DeactivateLabel: Str := [0xBE44, 0xD65C, 0xC131, 0xD654]
  /** "활성화" (activate) */
  const ActivateLabel: Str := [0xD65C, 0xC131, 0xD654]
  /** "에 실패했습니다." (… failed) */
  const FailedSuffix: Str := [0xC5D0, 0x20, 0xC2E4, 0xD328, 0xD588, 0xC2B5, 0xB2C8, 0xB2E4, 0x2E]

  datatype AdminUser = AdminUser(id: Str, username: Str, role: Str, isActive: bool)

  // ---------------------------------------------------------------------
  // Search
  // ---------------------------------------------------------------------

  /** The lower-cased username or role of `u` includes `needle`. */
  predicate Matches(needle: Str, u: AdminUser)
  {
    Contains(Lower(u.username), needle) || Contains(Lower(u.role), needle)
  }

  function Matcher(needle: Str): AdminUser -> bool
  {
    (u: AdminUser) => Matches(needle, u)
  }

  /** The needle a non-blank query searches for: lower-cased, then trimmed. */
  function Needle(query: Str): (q: Str)
    ensures |q| == 0 <==> AllWhite(query)
  {
    LowerKeepsBlank(query);
    Trim(Lower(query))
  }

  /** The users shown for a search query: all of them when the query is
      blank, otherwise those whose username or role matches the needle. */
  function FilterUsers(users: seq<AdminUser>, query: Str): (r: seq<AdminUser>)
    ensures AllWhite(query) ==> r == users
    ensures !AllWhite(query) ==> forall i :: 0 <= i < |r| ==> Matches(Needle(query), r[i])
    ensures |r| <= |users|
  {
    if AllWhite(query) then users else Filter(Matcher(Needle(query)), users)
  }

  /** The filter keeps exactly the matching users, each as often as it
      occurs, in their original order. */
  lemma FilterUsersExact(users: seq<AdminUser>, query: Str, u: AdminUser)
    ensures var r := FilterUsers(users, query);
      && multiset(r)[u] == (if AllWhite(query) || Matches(Needle(query), u) then multiset(users)[u] else 0)
      && (u in r <==> u in users && (AllWhite(query) || Matches(Needle(query), u)))
      && IsSubsequence(r, users)
  {
    var r := FilterUsers(users, query);
    if AllWhite(query) {
      FilterIsSubsequence((x: AdminUser) => true, users);
      assert Filter((x: AdminUser) => true, users) == users by {
        FilterAll(users);
      }
    } else {
      FilterMultiplicity(Matcher(Needle(query)), users, u);
      FilterIsSubsequence(Matcher(Needle(query)), users);
    }
    assert u in r <==> multiset(r)[u] > 0;
    assert u in users <==> multiset(users)[u] > 0;
  }

  lemma {:induction false} FilterAll(users: seq<AdminUser>)
    ensures Filter((x: AdminUser) => true, users) == users
  {
    if |users| > 0 {
      FilterAll(users[1..]);
      assert users == [users[0]] + users[1..];
    }
  }

  // ---------------------------------------------------------------------
  // Statistics and the rows' actions
  // ---------------------------------------------------------------------

  predicate IsActive(u: AdminUser)
  {
    u.isActive
  }

  /** Administrators are recognised by the exact role "admin". */
  predicate IsAdmin(u: AdminUser)
  {
    u.role == AdminRole
  }

  /** A row offers the force-logout and activation buttons. */
  predicate ShowsActions(u: AdminUser)
  {
    u.role != AdminRole
  }

  datatype Stats = Stats(total: nat, active: nat, inactive: int, admins: nat)

  /** The head counts: `inactive` is computed as total minus active. */
  function ComputeStats(users: seq<AdminUser>): (r: Stats)
    ensures r.total == |users|
    ensures r.active == Count(IsActive, users) <= r.total
    ensures r.admins == Count(IsAdmin, users) <= r.total
    ensures r.inactive >= 0 && r.inactive == Count((u: AdminUser) => !u.isActive, users)
  {
    var active := Count(IsActive, users);
    CountComplement(IsActive, (u: AdminUser) => !u.isActive, users);
    Stats(|users|, active, |users| - active, Count(IsAdmin, users))
  }

  /** The footer's student count, total minus administrators. */
  function Students(st: Stats): int
  {
    st.total - st.admins
  }

  /** The footer's student count is exactly the number of users in the
      loaded list whose rows would offer actions; it is computed over the
      whole list, whatever the search. */
  lemma StudentsAreActionRows(users: seq<AdminUser>)
    ensures Students(ComputeStats(users)) == Count(ShowsActions, users) >= 0
  {
    CountComplement(IsAdmin, ShowsActions, users);
  }

  /** The rows rendered for a search offer actions at most as often as the
      footer's student count says, and exactly as often when the query is
      blank. */
  lemma RenderedActionRows(users: seq<AdminUser>, query: Str)
    ensures Count(ShowsActions, FilterUsers(users, query)) <= Students(ComputeStats(users))
    ensures AllWhite(query) ==> Count(ShowsActions, FilterUsers(users, query)) == Students(ComputeStats(users))
  {
    StudentsAreActionRows(users);
    if !AllWhite(query) {
      CountOfFiltered(ShowsActions, Matcher(Needle(query)), users);
    }
  }

  /** The footer: a search summary whenever the raw query is non-empty, the
      plain total otherwise. */
  datatype Footer = SearchSummary(shown: nat, total: nat) | TotalSummary(total: nat)

  function FooterFor(users: seq<AdminUser>, query: Str): (f: Footer)
    ensures f.total == |users|
    ensures |query| == 0 <==> f.TotalSummary?
    ensures f.SearchSummary? ==> f.shown == |FilterUsers(users, query)| <= f.total
  {
    if |query| > 0 then SearchSummary(|FilterUsers(users, query)|, |users|) else TotalSummary(|users|)
  }

  /** A query of spaces shows every user yet is reported as a search. */
  lemma BlankQueryFooter(users: seq<AdminUser>, query: Str)
    requires |query| > 0 && AllWhite(query)
    ensures FooterFor(users, query) == SearchSummary(|users|, |users|)
  {
  }

  // ---------------------------------------------------------------------
  // Confirmation dialog
  // ---------------------------------------------------------------------

  datatype ConfirmAction =
    | ForceLogout(userId: Str, username: Str)
    | ToggleActive(userId: Str, username: Str, isActive: bool)

  datatype Variant = Warning | Danger | Info

  /** `handleForceLogout` */
  function RequestForceLogout(u: AdminUser): ConfirmAction
  {
    ForceLogout(u.id, u.username)
  }

  /** `handleToggleActive`: the action remembers the state it toggles from. */
  function RequestToggle(u: AdminUser): ConfirmAction
  {
    ToggleActive(u.id, u.username, u.isActive)
  }

  /** True for the action that blocks a user's logins. */
  predicate Deactivates(a: ConfirmAction)
  {
    a.ToggleActive? && a.isActive
  }

  /** The dialog's colour; with nothing pending it falls back to `Info`. */
  function VariantOf(pending: Option<ConfirmAction>): (v: Variant)
    ensures v == Warning <==> pending.Some? && pending.value.ForceLogout?
    ensures v == Danger <==> pending.Some? && Deactivates(pending.value)
  {
    if pending.Some? && pending.value.ForceLogout? then Warning
    else if pending.Some? && Deactivates(pending.value) then Danger
    else Info
  }

  /** The confirm button's text, also used in the failure message. */
  function ActionLabel(a: ConfirmAction): (l: Str)
    ensures l == ForceLogoutLabel <==> a.ForceLogout?
    ensures l == DeactivateLabel <==> Deactivates(a)
    ensures l == ActivateLabel <==> a.ToggleActive? && !a.isActive
  {
    if a.ForceLogout? then ForceLogoutLabel
    else if a.isActive then DeactivateLabel
    else ActivateLabel
  }

  /** Colour and label agree for every pending action, and a toggle's label
      names the opposite of the user's current state. */
  lemma VariantMatchesLabel(a: ConfirmAction)
    ensures VariantOf(Some(a)) == Warning <==> ActionLabel(a) == ForceLogoutLabel
    ensures VariantOf(Some(a)) == Danger <==> ActionLabel(a) == DeactivateLabel
    ensures VariantOf(Some(a)) == Info <==> ActionLabel(a) == ActivateLabel
  {
  }

  /** A row's force-logout button asks for confirmation in the warning
      colour under the force-logout label. */
  lemma ForceLogoutRequest(u: AdminUser)
    ensures RequestForceLogout(u) == ForceLogout(u.id, u.username)
    ensures VariantOf(Some(RequestForceLogout(u))) == Warning
    ensures ActionLabel(RequestForceLogout(u)) == ForceLogoutLabel
  {
  }

  /** The toggle requested from a row deactivates exactly the active users. */
  lemma ToggleFollowsState(u: AdminUser)
    ensures ActionLabel(RequestToggle(u)) == (if u.isActive then DeactivateLabel else ActivateLabel)
    ensures VariantOf(Some(RequestToggle(u))) == (if u.isActive then Danger else Info)
  {
  }

  // ---------------------------------------------------------------------
  // Panel state
  // ---------------------------------------------------------------------

  datatype Panel = Panel(
    users: seq<AdminUser>,
    loading: bool,
    error: Str,
    accessDenied: bool,
    searchQuery: Str,
    pending: Option<ConfirmAction>)

  /** What the list request produced: the users, or what it threw. */
  datatype ListResult = Listed(list: seq<AdminUser>) | ListFailed(thrown: Thrown)

  predicate IsForbidden(t: Thrown)
  {
    t.Raised? && t.error.AuthError? && t.error.status == 403
  }

  /** `fetchUsers`: a 403 authentication error means the panel is off
      limits; any other failure is shown as an error, with a fixed text
      for a thrown non-`Error`. The list is replaced only on success. */
  function FetchUsers(p: Panel, result: ListResult): (r: Panel)
    ensures !r.loading
    ensures r.searchQuery == p.searchQuery && r.pending == p.pending
    ensures result.Listed? ==> r.users == result.list && !r.accessDenied && r.error == []
    ensures result.ListFailed? ==> r.users == p.users
    ensures result.ListFailed? && IsForbidden(result.thrown) ==> r.accessDenied && r.error == []
    ensures result.ListFailed? && !IsForbidden(result.thrown) ==>
      && r.accessDenied == p.accessDenied
      && r.error == (if result.thrown.Raised? then result.thrown.error.Message() else ListUnavailable)
  {
    var p1 := p.(loading := true, error := []);
    var p2 :=
      match result
      case Listed(list) => p1.(users := list, accessDenied := false)
      case ListFailed(t) =>
        if IsForbidden(t) then p1.(accessDenied := true)
        else p1.(error := if t.Raised? then t.error.Message() else ListUnavailable);
    p2.(loading := false)
  }

  /** A failure other than 403 never shows the access-denied screen unless
      it was already shown, and a 403 never leaves an error banner. */
  lemma FetchFailureKinds(p: Panel, t: Thrown)
    ensures FetchUsers(p, ListFailed(t)).accessDenied <==> IsForbidden(t) || p.accessDenied
    ensures IsForbidden(t) ==> FetchUsers(p, ListFailed(t)).error == []
  {
  }

  /** Opening the panel with a token loads the list and clears the search. */
  function OpenPanel(p: Panel, isOpen: bool, jwt: Str, result: ListResult): (r: Panel)
    ensures !(isOpen && |jwt| > 0) ==> r == p
    ensures isOpen && |jwt| > 0 ==> r == FetchUsers(p, result).(searchQuery := [])
  {
    if isOpen && |jwt| > 0 then FetchUsers(p, result).(searchQuery := []) else p
  }

  /** A freshly opened panel shows the whole list it loaded: the search is
      cleared, so the filter keeps every user and the footer gives the
      total only. */
  lemma OpenPanelShowsAll(p: Panel, jwt: Str, result: ListResult)
    requires |jwt| > 0
    ensures var r := OpenPanel(p, true, jwt, result);
      && FilterUsers(r.users, r.searchQuery) == r.users
      && FooterFor(r.users, r.searchQuery).TotalSummary?
  {
  }

  /** The failure message of a confirmed action: the error's message, or
      the action's label followed by "에 실패했습니다.". */
  function ActionFailure(a: ConfirmAction, t: Thrown): (m: Str)
    ensures t.Raised? ==> m == t.error.Message()
    ensures t.RaisedNonError? ==> StartsWith(m, ActionLabel(a)) && m[|ActionLabel(a)|..] == FailedSuffix
  {
    if t.Raised? then t.error.Message() else ActionLabel(a) + FailedSuffix
  }

  /** What happened to the admin call: it succeeded and the list was then
      reloaded with the given result, or it threw. */
  datatype CallResult = CallSucceeded(refresh: ListResult) | CallFailed(thrown: Thrown)

  /** `executeConfirmAction`: with nothing pending nothing happens and no
      call is made. Otherwise the pending action is cleared before its call
      is issued; success reloads the list and failure shows a message. The
      second result is the call issued, if any. */
  function ExecuteConfirmAction(p: Panel, call: CallResult): (r: (Panel, Option<ConfirmAction>))
    ensures p.pending.None? ==> r == (p, None)
    ensures p.pending.Some? ==> r.1 == p.pending && r.0.pending.None?
    ensures p.pending.Some? && call.CallSucceeded? ==>
      r.0 == FetchUsers(p.(pending := None), call.refresh)
    ensures p.pending.Some? && call.CallFailed? ==>
      r.0 == p.(pending := None, error := ActionFailure(p.pending.value, call.thrown))
  {
    match p.pending
    case None => (p, None)
    case Some(action) =>
      var p1 := p.(pending := None);
      match call
      case CallSucceeded(refresh) => (FetchUsers(p1, refresh), Some(action))
      case CallFailed(t) => (p1.(error := ActionFailure(action, t)), Some(action))
  }

  /** Cancelling the dialog clears the pending action. */
  function CancelConfirm(p: Panel): (r: Panel)
    ensures r.pending.None? && r == p.(pending := None)
  {
    p.(pending := None)
  }

  /** A cancelled action is never carried out: executing after a cancel
      issues no call and changes nothing. */
  lemma CancelledActionNotExecuted(p: Panel, call: CallResult)
    ensures ExecuteConfirmAction(CancelConfirm(p), call) == (CancelConfirm(p), None)
  {
  }

  /** Executing twice issues at most one call: the first run clears what
      the second would act on. */
  lemma ExecuteAtMostOnce(p: Panel, first: CallResult, second: CallResult)
    ensures ExecuteConfirmAction(ExecuteConfirmAction(p, first).0, second).1.None?
  {
  }
}

=== FILE: api.dfy ===
/** The value types of the client API layer: chat messages and their
    content, and the errors an API call can raise, including the
    classification of a 401/403 response as an authentication error. */
module Api {
  import opened Prelude
  import opened Text

  datatype Role = User | Assistant | System

  /** One part of a multimodal message. Parts of any other kind are kept
      with their kind name so that they can be estimated (as zero). */
  datatype ContentPart = TextPart(text: Str) | ImageUrl(url: Str) | OtherPart(kind: Str)

  /** A message body is either plain text or a list of parts, never a mix. */
  datatype Content = Plain(text: Str) | Parts(parts: seq<ContentPart>)

  datatype Message = Message(role: Role, content: Content)

  /** What `response.json()` yields on a failed response: a body that does
      not parse, or an object whose `detail` string may be missing. */
  datatype ErrorBody = Unparsable | Parsed(detail: Option<Str>)

  /** The errors an API call raises. `AuthError` carries the HTTP status and
      the server's detail, and its `message` is that detail; every other
      failure is a plain `Error` with a message. */
  datatype ApiError = AuthError(status: int, detail: Str) | GenericError(text: Str)
  {
    /** `error.message` */
    function Message(): Str
    {
      match this
      case AuthError(_, detail) => detail
      case GenericError(text) => text
    }
  }

  /** A thrown value: an `Error` instance, or anything else. */
  datatype Thrown = Raised(error: ApiError) | RaisedNonError

  /** The default detail, "인증에 실패했습니다." (authentication failed). */
  const DefaultAuthDetail: Str := [0xC778, 0xC99D, 0xC5D0, 0x20, 0xC2E4, 0xD328, 0xD588, 0xC2B5, 0xB2C8, 0xB2E4, 0x2E]

  predicate IsAuthStatus(status: int)
  {
    status == 401 || status == 403
  }

  /** `response.ok` */
  predicate IsOk(status: int)
  {
    200 <= status <= 299
  }

  /** The detail an authentication error carries: the body's `detail` when
      the body parses and `detail` is truthy (a non-empty string), the
      default message otherwise. */
  function AuthDetail(body: ErrorBody): (d: Str)
    ensures |d| > 0
    ensures (body.Parsed? && body.detail.Some? && |body.detail.value| > 0) ==> d == body.detail.value
    ensures !(body.Parsed? && body.detail.Some? && |body.detail.value| > 0) ==> d == DefaultAuthDetail
  {
    match body
    case Parsed(Some(detail)) => if |detail| > 0 then detail else DefaultAuthDetail
    case _ => DefaultAuthDetail
  }

  /** `throwIfAuthError`: a 401 or 403 response raises an `AuthError` with
      the response status; every other status raises nothing here. */
  function ThrowIfAuthError(status: int, body: ErrorBody): (r: Option<ApiError>)
    ensures r.Some? <==> IsAuthStatus(status)
    ensures r.Some? ==> r.value.AuthError? && r.value.status == status
    ensures r.Some? ==> r.value.Message() == r.value.detail == AuthDetail(body)
  {
    if IsAuthStatus(status) then Some(AuthError(status, AuthDetail(body))) else None
  }

  /** The default message is used exactly when the server gave no usable
      detail (or gave the default text itself). */
  lemma AuthErrorFallback(status: int, body: ErrorBody)
    requires IsAuthStatus(status)
    ensures ThrowIfAuthError(status, body).value.detail == DefaultAuthDetail
        <==> (body.Unparsable? || body.detail.None? || |body.detail.value| == 0
              || body.detail.value == DefaultAuthDetail)
  {
  }
}

=== FILE: chat_input.dfy ===
/** The chat input box: the submit guard and the send button's disabled
    state. */
module ChatInput {
  import opened Prelude
  import opened Text

  datatype InputState = InputState(input: Str, isLoading: bool)

  /** `handleSubmit`: the new input state and the text handed to the send
      callback, if any. An accepted input is sent as typed, untrimmed, and
      the box is cleared. */
  function HandleSubmit(s: InputState): (r: (InputState, Option<Str>))
    ensures (AllWhite(s.input) || s.isLoading) ==> r == (s, None)
    ensures !(AllWhite(s.input) || s.isLoading) ==> r == (InputState([], s.isLoading), Some(s.input))
  {
    if |Trim(s.input)| == 0 || s.isLoading then (s, None) else (s.(input := []), Some(s.input))
  }

  /** The send button's `disabled` attribute. */
  predicate SendDisabled(s: InputState)
  {
    |Trim(s.input)| == 0 || s.isLoading
  }

  /** The button is disabled exactly when pressing it would do nothing, and
      an accepted submit sends a message that is not blank. */
  lemma ButtonMatchesHandler(s: InputState)
    ensures SendDisabled(s) <==> HandleSubmit(s).1.None?
    ensures HandleSubmit(s).1.Some? ==> !AllWhite(HandleSubmit(s).1.value)
  {
  }

  /** Submitting twice in a row sends at most once: the box is empty after
      the first. */
  lemma SubmitOnce(s: InputState)
    ensures HandleSubmit(HandleSubmit(s).0).1.None?
  {
    assert AllWhite(HandleSubmit(s).0.input) || HandleSubmit(s).0 == s;
  }
}

=== FILE: chat_session.dfy ===
/** The chat session of the application shell: the message list, the
    conversation list, the selected conversation and the login state, and
    the handlers that update them (send, stream fragments in, fail, log
    out, start a new chat, delete a conversation).

    Each handler is a function from the state before to the state after.
    Network calls appear only through their results, which are parameters:
    the id of a created conversation (`None` when creation failed), the
    outcome of the completion stream, whether a deletion went through. */
module ChatSession {
  import opened Prelude
  import opened Text
  import opened Api
  import opened StreamDecoder

  /** Titles keep this many code units of the first message. */
  const TitleLength: nat := 20
  /** "..." */
  const Ellipsis: Str := [0x2E, 0x2E, 0x2E]
  /** "Error: " */
  const ErrorPrefix: Str := [0x45, 0x72, 0x72, 0x6F, 0x72, 0x3A, 0x20]
  /** "401" */
  const Code401: Str := [0x34, 0x30, 0x31]
  /** "403" */
  const Code403: Str := [0x34, 0x30, 0x33]

  datatype Conversation = Conversation(id: Str, title: Str)

  datatype Session = Session(
    messages: seq<Message>,
    conversations: seq<Conversation>,
    currentConvId: Option<Str>,
    apiKey: Str,
    username: Str,
    isLoading: bool)

  function UserMessage(content: Str): Message
  {
    Message(User, Plain(content))
  }

  /** The assistant's reply as shown so far. */
  function Reply(text: Str): Message
  {
    Message(Assistant, Plain(text))
  }

  function SystemError(e: ApiError): Message
  {
    Message(System, Plain(ErrorPrefix + e.Message()))
  }

  // ---------------------------------------------------------------------
  // Titles
  // ---------------------------------------------------------------------

  /** The title of a conversation started by `content`: its first 20 code
      units followed by "..." when it is longer, otherwise all of it. */
  function ConversationTitle(content: Str): (t: Str)
    ensures |t| <= TitleLength + |Ellipsis|
    ensures |content| <= TitleLength ==> t == content
    ensures |content| > TitleLength ==>
      |t| == TitleLength + |Ellipsis| && StartsWith(t, content[..TitleLength]) && t[TitleLength..] == Ellipsis
  {
    if |content| > TitleLength then content[..TitleLength] + Ellipsis else content
  }

  // ---------------------------------------------------------------------
  // Small transitions
  // ---------------------------------------------------------------------

  /** `performLogout`: every piece of session state is cleared. */
  function PerformLogout(s: Session): (r: Session)
    ensures r.apiKey == [] && r.username == []
    ensures r.messages == [] && r.conversations == [] && r.currentConvId.None?
    ensures r.isLoading == s.isLoading
  {
    s.(apiKey := [], username := [], messages := [], conversations := [], currentConvId := None)
  }

  /** `handleLogout`: log out when the user confirms. */
  function Logout(s: Session, confirmed: bool): (r: Session)
    ensures confirmed ==> r == PerformLogout(s)
    ensures !confirmed ==> r == s
  {
    if confirmed then PerformLogout(s) else s
  }

  /** `handleNewChat`: an empty chat, conversations untouched. */
  function NewChat(s: Session): (r: Session)
    ensures r.messages == [] && r.currentConvId.None?
    ensures r.conversations == s.conversations && r.apiKey == s.apiKey
    ensures r.username == s.username && r.isLoading == s.isLoading
  {
    s.(messages := [], currentConvId := None)
  }

  /** Keeps every conversation except those with this id. */
  function OtherId(id: Str): Conversation -> bool
  {
    (c: Conversation) => c.id != id
  }

  /** `handleDeleteConversation`: when the user confirmed and the server
      deleted the conversation, drop every conversation with that id; leave
      the chat if it was the one shown. Otherwise nothing changes. */
  function DeleteConversation(s: Session, id: Str, deleted: bool): (r: Session)
    ensures !deleted ==> r == s
    ensures deleted ==> r.conversations == Filter(OtherId(id), s.conversations)
    ensures deleted && s.currentConvId == Some(id) ==> r.currentConvId.None? && r.messages == []
    ensures deleted && s.currentConvId != Some(id) ==>
      r.currentConvId == s.currentConvId && r.messages == s.messages
    ensures r.apiKey == s.apiKey && r.username == s.username && r.isLoading == s.isLoading
  {
    if !deleted then s
    else
      var s1 := s.(conversations := Filter(OtherId(id), s.conversations));
      if s.currentConvId == Some(id) then s1.(currentConvId := None, messages := []) else s1
  }

  /** Deleting removes exactly the conversations with that id, keeps every
      other one as often as it occurred, and keeps their order. */
  lemma DeleteRemovesExactly(s: Session, id: Str, c: Conversation)
    ensures var r := DeleteConversation(s, id, true);
      && (c in r.conversations <==> c in s.conversations && c.id != id)
      && multiset(r.conversations)[c] == (if c.id != id then multiset(s.conversations)[c] else 0)
      && IsSubsequence(r.conversations, s.conversations)
  {
    var r := DeleteConversation(s, id, true);
    FilterMultiplicity(OtherId(id), s.conversations, c);
    FilterIsSubsequence(OtherId(id), s.conversations);
    assert c in r.conversations <==> multiset(r.conversations)[c] > 0;
    assert c in s.conversations <==> multiset(s.conversations)[c] > 0;
  }

  // ---------------------------------------------------------------------
  // Sending
  // ---------------------------------------------------------------------

  /** The synchronous start of `handleSendMessage`: without an API key
      nothing happens; otherwise the user's message and an empty assistant
      placeholder are appended and the session starts loading. */
  function BeginSend(s: Session, content: Str): (r: Session)
    ensures |s.apiKey| == 0 ==> r == s
    ensures |s.apiKey| > 0 ==>
      && r.messages == s.messages + [UserMessage(content), Reply([])]
      && r.isLoading
      && r == s.(messages := r.messages, isLoading := true)
  {
    if |s.apiKey| == 0 then s
    else s.(messages := s.messages + [UserMessage(content), Reply([])], isLoading := true)
  }

  /** A conversation created for the first message becomes the first one
      in the list and the current one. */
  function AttachConversation(s: Session, id: Str, content: Str): (r: Session)
    ensures r.conversations == [Conversation(id, ConversationTitle(content))] + s.conversations
    ensures r.currentConvId == Some(id)
    ensures r.messages == s.messages && r.isLoading == s.isLoading && r.apiKey == s.apiKey
    ensures r.username == s.username
  {
    s.(conversations := [Conversation(id, ConversationTitle(content))] + s.conversations,
       currentConvId := Some(id))
  }

  /** The `setMessages` updater of `onChunk`: the last message becomes the
      assistant's reply so far; earlier messages are untouched. On an empty
      list the assignment to index -1 changes no element. */
  function ShowReply(messages: seq<Message>, reply: Str): (r: seq<Message>)
    ensures |r| == |messages|
    ensures |messages| > 0 ==>
      r[..|r| - 1] == messages[..|messages| - 1] && r[|r| - 1] == Reply(reply)
  {
    if |messages| == 0 then messages else messages[..|messages| - 1] + [Reply(reply)]
  }

  /** The message list after the fragments received so far: after the k-th
      fragment the reply shown is the concatenation of the first k. */
  function StreamFragments(messages: seq<Message>, fragments: seq<Str>): seq<Message>
    decreases |fragments|
  {
    if |fragments| == 0 then messages
    else ShowReply(StreamFragments(messages, fragments[..|fragments| - 1]), Concat(fragments))
  }

  /** After fragments c1…ck the last message is the assistant's c1+…+ck;
      the other messages and the length are unchanged. */
  lemma {:induction false} StreamedReply(messages: seq<Message>, fragments: seq<Str>)
    requires |messages| > 0 && |fragments| > 0
    ensures StreamFragments(messages, fragments)
      == messages[..|messages| - 1] + [Reply(Concat(fragments))]
    decreases |fragments|
  {
    var before := StreamFragments(messages, fragments[..|fragments| - 1]);
    if |fragments| > 1 {
      StreamedReply(messages, fragments[..|fragments| - 1]);
    }
    assert |before| == |messages| by {
      StreamKeepsLength(messages, fragments[..|fragments| - 1]);
    }
    assert before[..|before| - 1] == messages[..|messages| - 1];
  }

  lemma {:induction false} StreamKeepsLength(messages: seq<Message>, fragments: seq<Str>)
    ensures |StreamFragments(messages, fragments)| == |messages|
    ensures |messages| > 0 ==>
      StreamFragments(messages, fragments)[..|messages| - 1] == messages[..|messages| - 1]
    decreases |fragments|
  {
    if |fragments| > 0 {
      StreamKeepsLength(messages, fragments[..|fragments| - 1]);
    }
  }

  /** When the placeholder is last, streaming any number of fragments
      (none included) leaves the assistant's concatenated reply there. */
  lemma ReplyAfterPlaceholder(prefix: seq<Message>, fragments: seq<Str>)
    ensures StreamFragments(prefix + [Reply([])], fragments) == prefix + [Reply(Concat(fragments))]
  {
    var ms := prefix + [Reply([])];
    if |fragments| > 0 {
      StreamedReply(ms, fragments);
      assert ms[..|ms| - 1] == prefix;
    }
  }

  // ---------------------------------------------------------------------
  // The error callback: as written and corrected
  // ---------------------------------------------------------------------

  /** The forced-logout test of the error callback, as written: the
      message mentions 401 or 403. */
  predicate MentionsAuthStatus(e: ApiError)
  {
    Contains(e.Message(), Code401) || Contains(e.Message(), Code403)
  }

  /** `onError` as written: stop loading, log out when the message mentions
      401 or 403, then append the error as a system message. */
  function OnStreamErrorAsWritten(s: Session, e: ApiError): (r: Session)
    ensures !r.isLoading
    ensures MentionsAuthStatus(e) ==> r == PerformLogout(s).(isLoading := false, messages := [SystemError(e)])
    ensures !MentionsAuthStatus(e) ==> r == s.(isLoading := false, messages := s.messages + [SystemError(e)])
  {
    var s1 := s.(isLoading := false);
    var s2 := if MentionsAuthStatus(e) then PerformLogout(s1) else s1;
    s2.(messages := s2.messages + [SystemError(e)])
  }

  /** An authentication error whose detail does not spell out its status
      leaves the user logged in: the server's 401 with an unreadable body
      carries the default detail, which contains neither "401" nor "403". */
  lemma AuthErrorKeepsSessionAsWritten(s: Session)
    ensures var e := AuthError(401, DefaultAuthDetail);
      && !MentionsAuthStatus(e)
      && OnStreamErrorAsWritten(s, e).apiKey == s.apiKey
      && OnStreamErrorAsWritten(s, e).conversations == s.conversations
  {
    assert 0x34 !in DefaultAuthDetail;
    FirstUnitAbsent(DefaultAuthDetail, Code401);
    FirstUnitAbsent(DefaultAuthDetail, Code403);
  }

  /** `onError` as intended: an authentication error always ends the
      session; any other error only adds the system message. */
  function OnStreamError(s: Session, e: ApiError): (r: Session)
    ensures !r.isLoading
    ensures |r.messages| > 0 && r.messages[|r.messages| - 1] == SystemError(e)
    ensures e.AuthError? ==>
      && r.apiKey == [] && r.username == [] && r.conversations == [] && r.currentConvId.None?
      && r.messages == [SystemError(e)]
    ensures e.AuthError? ==> r == PerformLogout(s).(isLoading := false, messages := [SystemError(e)])
    ensures !e.AuthError? ==> r == s.(isLoading := false, messages := s.messages + [SystemError(e)])
  {
    var s1 := s.(isLoading := false);
    var s2 := if e.AuthError? then PerformLogout(s1) else s1;
    s2.(messages := s2.messages + [SystemError(e)])
  }

  /** The two callbacks differ only on errors whose class and message
      disagree about authentication. */
  lemma OnStreamErrorAgrees(s: Session, e: ApiError)
    requires e.AuthError? <==> MentionsAuthStatus(e)
    ensures OnStreamError(s, e) == OnStreamErrorAsWritten(s, e)
  {
  }

  /** The reply streamed into the placeholder after the messages `sent`,
      then `onFinish` or `onError`. */
  function Deliver(s: Session, sent: seq<Message>, outcome: StreamOutcome): (r: Session)
    requires s.messages == sent + [Reply([])]
    ensures !r.isLoading
    ensures outcome.end.Finished? ==>
      r == s.(messages := sent + [Reply(Concat(outcome.fragments))], isLoading := false)
    ensures outcome.end.Failed? && !outcome.end.error.AuthError? ==>
      r == s.(messages := sent + [Reply(Concat(outcome.fragments)), SystemError(outcome.end.error)], isLoading := false)
    ensures outcome.end.Failed? && outcome.end.error.AuthError? ==>
      r == PerformLogout(s).(isLoading := false, messages := [SystemError(outcome.end.error)])
  {
    ReplyAfterPlaceholder(sent, outcome.fragments);
    var s1 := s.(messages := StreamFragments(s.messages, outcome.fragments));
    match outcome.end
    case Finished => s1.(isLoading := false)
    case Failed(e) => OnStreamError(s1, e)
  }

  // ---------------------------------------------------------------------
  // The whole send: as written and corrected
  // ---------------------------------------------------------------------

  /** The send handler's `convId` is truthy: a conversation is selected and
      its id is not the empty string. Otherwise a conversation is created. */
  predicate HasConversation(s: Session)
  {
    s.currentConvId.Some? && |s.currentConvId.value| > 0
  }

  /** The session a send writes into: the session itself when a
      conversation is selected, otherwise the session with the newly
      created conversation listed first and selected. */
  function Target(s: Session, content: Str, created: Option<Str>): Session
    requires HasConversation(s) || created.Some?
  {
    if HasConversation(s) then s
    else s.(conversations := [Conversation(created.value, ConversationTitle(content))] + s.conversations,
            currentConvId := created)
  }

  /** `handleSendMessage` as written. When creating the conversation fails
      the handler returns early and nothing ever clears `isLoading`. */
  function SendMessageAsWritten(s: Session, content: Str, created: Option<Str>, outcome: StreamOutcome): (r: Session)
    ensures |s.apiKey| == 0 ==> r == s
    ensures |s.apiKey| > 0 && !HasConversation(s) && created.None? ==>
      r == s.(messages := s.messages + [UserMessage(content), Reply([])], isLoading := true)
    // a completed reply follows the user's message; nothing else changes
    // beyond the created conversation
    ensures |s.apiKey| > 0 && (HasConversation(s) || created.Some?) && outcome.end.Finished? ==>
      r == Target(s, content, created).(
        messages := s.messages + [UserMessage(content), Reply(Concat(outcome.fragments))],
        isLoading := false)
    // an error that does not mention 401 or 403 is appended
    ensures |s.apiKey| > 0 && (HasConversation(s) || created.Some?) && outcome.end.Failed?
            && !MentionsAuthStatus(outcome.end.error) ==>
      r == Target(s, content, created).(
        messages := s.messages + [UserMessage(content), Reply(Concat(outcome.fragments)), SystemError(outcome.end.error)],
        isLoading := false)
    // one that mentions them logs out
    ensures |s.apiKey| > 0 && (HasConversation(s) || created.Some?) && outcome.end.Failed?
            && MentionsAuthStatus(outcome.end.error) ==>
      r == PerformLogout(s).(isLoading := false, messages := [SystemError(outcome.end.error)])
  {
    var s1 := BeginSend(s, content);
    if |s.apiKey| == 0 then s1
    else if !HasConversation(s) && created.None? then s1
    else
      var s2 := if !HasConversation(s) then AttachConversation(s1, created.value, content) else s1;
      assert s2.messages == (s.messages + [UserMessage(content)]) + [Reply([])];
      ReplyAfterPlaceholder(s.messages + [UserMessage(content)], outcome.fragments);
      var s3 := s2.(messages := StreamFragments(s2.messages, outcome.fragments));
      match outcome.end
      case Finished => s3.(isLoading := false)
      case Failed(e) => OnStreamErrorAsWritten(s3, e)
  }

  /** A failed conversation creation leaves the session loading for good:
      the input stays disabled and every later send is refused. */
  lemma CreateFailureStaysLoadingAsWritten(s: Session, content: Str, outcome: StreamOutcome)
    requires |s.apiKey| > 0 && !HasConversation(s)
    ensures SendMessageAsWritten(s, content, None, outcome).isLoading
  {
  }

  /** `handleSendMessage`, with a failed conversation creation ending the
      loading state and an authentication error ending the session. */
  function SendMessage(s: Session, content: Str, created: Option<Str>, outcome: StreamOutcome): (r: Session)
    // without an API key nothing happens
    ensures |s.apiKey| == 0 ==> r == s
    // with one, the send always ends with the session no longer loading
    ensures |s.apiKey| > 0 ==> !r.isLoading
    // a failed creation keeps the user message and the empty placeholder
    ensures |s.apiKey| > 0 && !HasConversation(s) && created.None? ==>
      r == s.(messages := s.messages + [UserMessage(content), Reply([])], isLoading := false)
    // a new conversation is listed first and selected
    ensures |s.apiKey| > 0 && !HasConversation(s) && created.Some? && !outcome.end.Failed? ==>
      r.conversations == [Conversation(created.value, ConversationTitle(content))] + s.conversations
      && r.currentConvId == created
    // a completed reply follows the user's message; the conversation
    // list, the selection and the login change only by the created
    // conversation
    ensures |s.apiKey| > 0 && (HasConversation(s) || created.Some?) && outcome.end.Finished? ==>
      r == Target(s, content, created).(
        messages := s.messages + [UserMessage(content), Reply(Concat(outcome.fragments))],
        isLoading := false)
    // a failed stream keeps what arrived and adds the error
    ensures |s.apiKey| > 0 && (HasConversation(s) || created.Some?) && outcome.end.Failed?
            && !outcome.end.error.AuthError? ==>
      r == Target(s, content, created).(
        messages := s.messages + [UserMessage(content), Reply(Concat(outcome.fragments)), SystemError(outcome.end.error)],
        isLoading := false)
    // an authentication failure logs out
    ensures |s.apiKey| > 0 && (HasConversation(s) || created.Some?) && outcome.end.Failed?
            && outcome.end.error.AuthError? ==>
      r == PerformLogout(s).(isLoading := false, messages := [SystemError(outcome.end.error)])
  {
    var s1 := BeginSend(s, content);
    if |s.apiKey| == 0 then s1
    else if !HasConversation(s) && created.None? then s1.(isLoading := false)
    else
      var s2 := if !HasConversation(s) then AttachConversation(s1, created.value, content) else s1;
      assert s2.messages == s.messages + [UserMessage(content)] + [Reply([])];
      Deliver(s2, s.messages + [UserMessage(content)], outcome)
  }

  /** Away from the two defects the corrected handler is the handler as
      written: a send whose conversation exists or was created, and whose
      error, if any, mentions 401 or 403 exactly when it is an
      authentication error. */
  lemma SendAgreesAsWritten(s: Session, content: Str, created: Option<Str>, outcome: StreamOutcome)
    requires |s.apiKey| > 0 && (HasConversation(s) || created.Some?)
    requires outcome.end.Failed? ==> (outcome.end.error.AuthError? <==> MentionsAuthStatus(outcome.end.error))
    ensures SendMessage(s, content, created, outcome) == SendMessageAsWritten(s, content, created, outcome)
  {
    if outcome.end.Failed? {
      var s1 := BeginSend(s, content);
      var s2 := if !HasConversation(s) then AttachConversation(s1, created.value, content) else s1;
      OnStreamErrorAgrees(s2.(messages := StreamFragments(s2.messages, outcome.fragments)), outcome.end.error);
    }
  }

  /** After logging out nothing can be sent: without an API key the send
      handler leaves the logged-out session as it is. */
  lemma LoggedOutCannotSend(s: Session, content: Str, created: Option<Str>, outcome: StreamOutcome)
    ensures var r := PerformLogout(s);
      && BeginSend(r, content) == r
      && SendMessage(r, content, created, outcome) == r
      && SendMessageAsWritten(r, content, created, outcome) == r
    ensures var r := Logout(s, true);
      && BeginSend(r, content) == r
      && SendMessage(r, content, created, outcome) == r
  {
  }

  /** The first message of a new chat, once its conversation is created,
      puts that conversation first in the list, selects it, and the chat
      holds exactly the message and its reply. */
  lemma NewChatThenSend(s: Session, content: Str, id: Str, outcome: StreamOutcome)
    requires |s.apiKey| > 0 && outcome.end.Finished?
    ensures var r := SendMessage(NewChat(s), content, Some(id), outcome);
      && r.conversations == [Conversation(id, ConversationTitle(content))] + s.conversations
      && r.currentConvId == Some(id)
      && r.messages == [UserMessage(content), Reply(Concat(outcome.fragments))]
      && !r.isLoading
  {
  }

  /** A selected conversation whose id is the empty string counts as none:
      the send creates a conversation, lists it first and selects it. */
  lemma EmptyIdCreatesConversation(s: Session, content: Str, id: Str, outcome: StreamOutcome)
    requires |s.apiKey| > 0 && s.currentConvId == Some([]) && !outcome.end.Failed?
    ensures var r := SendMessage(s, content, Some(id), outcome);
      && r.conversations == [Conversation(id, ConversationTitle(content))] + s.conversations
      && r.currentConvId == Some(id)
    ensures var r := SendMessageAsWritten(s, content, Some(id), outcome);
      && r.conversations == [Conversation(id, ConversationTitle(content))] + s.conversations
      && r.currentConvId == Some(id)
  {
  }

  /** From a logged-in, idle session, a send through the chat input
      returns to an idle session that can send again (unless it was logged
      out); the as-written handler does not. */
  lemma SendReturnsToIdle(s: Session, content: Str, created: Option<Str>, outcome: StreamOutcome)
    requires |s.apiKey| > 0 && !s.isLoading
    ensures !SendMessage(s, content, created, outcome).isLoading
    ensures !HasConversation(s) && created.None? ==> SendMessageAsWritten(s, content, created, outcome).isLoading
  {
  }
}

=== FILE: password_form.dfy ===
/** The password-change form of the settings dialog: its validators, the
    submit guard, and the state after the change request succeeds or fails.
    The request itself is a parameter: what it returned or threw. */
module PasswordForm {
  import opened Prelude
  import opened Text
  import opened Api

  /** The longest new password the form accepts, in UTF-16 code units. */
  const MaxPasswordLength: nat := 12
  /** "비밀번호가 성공적으로 변경되었습니다." (password changed) */
  const ChangedText: Str := [0xBE44, 0xBC00, 0xBC88, 0xD638, 0xAC00, 0x20, 0xC131, 0xACF5, 0xC801, 0xC73C, 0xB85C, 0x20, 0xBCC0, 0xACBD, 0xB418, 0xC5C8, 0xC2B5, 0xB2C8, 0xB2E4, 0x2E]
  /** "비밀번호 변경에 실패했습니다." (password change failed) */
  const ChangeFailedText: Str := [0xBE44, 0xBC00, 0xBC88, 0xD638, 0x20, 0xBCC0, 0xACBD, 0xC5D0, 0x20, 0xC2E4, 0xD328, 0xD588, 0xC2B5, 0xB2C8, 0xB2E4, 0x2E]

  datatype Status = Status(text: Str, isError: bool)

  datatype Form = Form(
    currentPw: Str,
    newPw: Str,
    confirmPw: Str,
    showCurrentPw: bool,
    showNewPw: bool,
    showConfirmPw: bool,
    isLoading: bool,
    status: Option<Status>,
    jwt: Str)

  predicate PasswordsMatch(f: Form)
  {
    |f.newPw| > 0 && f.newPw == f.confirmPw
  }

  predicate IsNewPwOverLimit(f: Form)
  {
    |f.newPw| > MaxPasswordLength
  }

  predicate CanSubmit(f: Form)
  {
    |f.currentPw| > 0 && |f.newPw| > 0 && |f.newPw| <= MaxPasswordLength && PasswordsMatch(f) && !f.isLoading
  }

  /** The form can be submitted exactly when the current password is given,
      the new one is 1 to 12 code units long and confirmed, and no request
      is running; in particular an over-long password blocks submission. */
  lemma CanSubmitExactly(f: Form)
    ensures CanSubmit(f) <==>
      && |f.currentPw| > 0
      && 1 <= |f.newPw| <= MaxPasswordLength
      && f.confirmPw == f.newPw
      && !f.isLoading
    ensures IsNewPwOverLimit(f) ==> !CanSubmit(f)
    ensures CanSubmit(f) ==> PasswordsMatch(f) && |f.confirmPw| > 0
  {
  }

  /** What the change request produced: success, with the new token when
      the server sent one, or a thrown value. */
  datatype ChangeResult = Changed(accessToken: Option<Str>) | ChangeFailed(thrown: Thrown)

  /** The form once the request has settled. On success the three
      password fields are cleared and the success message shown; the token
      is replaced only by a present, non-empty new one. On failure the
      fields stay and the error is shown. Loading always ends. */
  function CompleteSubmit(f: Form, result: ChangeResult): (r: Form)
    ensures !r.isLoading
    ensures r.showCurrentPw == f.showCurrentPw && r.showNewPw == f.showNewPw && r.showConfirmPw == f.showConfirmPw
    ensures result.Changed? ==>
      && r.currentPw == [] && r.newPw == [] && r.confirmPw == []
      && r.status == Some(Status(ChangedText, false))
    ensures result.Changed? && result.accessToken.Some? && |result.accessToken.value| > 0 ==>
      r.jwt == result.accessToken.value
    ensures !(result.Changed? && result.accessToken.Some? && |result.accessToken.value| > 0) ==>
      r.jwt == f.jwt
    ensures result.ChangeFailed? ==>
      && r.currentPw == f.currentPw && r.newPw == f.newPw && r.confirmPw == f.confirmPw
      && r.status.Some? && r.status.value.isError
      && r.status.value.text == (if result.thrown.Raised? then result.thrown.error.Message() else ChangeFailedText)
  {
    var f1 := f.(isLoading := true, status := None);
    var f2 :=
      match result
      case Changed(token) =>
        var cleared := f1.(status := Some(Status(ChangedText, false)), currentPw := [], newPw := [], confirmPw := []);
        if token.Some? && |token.value| > 0 then cleared.(jwt := token.value) else cleared
      case ChangeFailed(t) =>
        f1.(status := Some(Status(if t.Raised? then t.error.Message() else ChangeFailedText, true)));
    f2.(isLoading := false)
  }

  /** `handleSubmit`: ignored unless the form can be submitted. */
  function Submit(f: Form, result: ChangeResult): (r: Form)
    ensures !CanSubmit(f) ==> r == f
    ensures CanSubmit(f) ==> r == CompleteSubmit(f, result)
  {
    if CanSubmit(f) then CompleteSubmit(f, result) else f
  }

  /** After a successful change the form cannot be submitted again until
      the user types new passwords, and a failed change leaves it
      submittable with the same input. */
  lemma SubmitOutcome(f: Form, result: ChangeResult)
    requires CanSubmit(f)
    ensures result.Changed? ==> !CanSubmit(Submit(f, result))
    ensures result.ChangeFailed? ==> CanSubmit(Submit(f, result))
  {
  }

  /** Opening the dialog with a token resets the three fields, the three
      visibility toggles and the status message. */
  function Open(f: Form, isOpen: bool, jwt: Str): (r: Form)
    ensures !(isOpen && |jwt| > 0) ==> r == f
    ensures isOpen && |jwt| > 0 ==>
      && r.currentPw == [] && r.newPw == [] && r.confirmPw == []
      && !r.showCurrentPw && !r.showNewPw && !r.showConfirmPw
      && r.status.None?
      && r.isLoading == f.isLoading && r.jwt == f.jwt
  {
    if isOpen && |jwt| > 0 then
      f.(currentPw := [], newPw := [], confirmPw := [],
         showCurrentPw := false, showNewPw := false, showConfirmPw := false, status := None)
    else f
  }

  /** A freshly opened form cannot be submitted. */
  lemma OpenedFormBlocked(f: Form, jwt: Str)
    requires |jwt| > 0
    ensures !CanSubmit(Open(f, true, jwt))
  {
  }
}

=== FILE: prelude.dfy ===
/** Small generic building blocks shared by every component of the model:
    an optional value and the order-preserving list filter that the
    front end uses (`Array.prototype.filter`). */
module Prelude {

  datatype Option<T> = None | Some(value: T)

  /** The elements of `xs` that satisfy `p`, in their original order. */
  function Filter<T>(p: T -> bool, xs: seq<T>): (r: seq<T>)
    ensures |r| <= |xs|
    ensures forall i :: 0 <= i < |r| ==> p(r[i])
    decreases |xs|
  {
    if |xs| == 0 then []
    else (if p(xs[0]) then [xs[0]] else []) + Filter(p, xs[1..])
  }

  /** Number of elements of `xs` that satisfy `p`. */
  function Count<T>(p: T -> bool, xs: seq<T>): nat
  {
    |Filter(p, xs)|
  }

  /** `a` can be obtained from `b` by deleting elements (order is kept). */
  ghost predicate IsSubsequence<T>(a: seq<T>, b: seq<T>)
    decreases |b|
  {
    if |b| == 0 then |a| == 0
    else IsSubsequence(a, b[1..]) || (|a| > 0 && a[0] == b[0] && IsSubsequence(a[1..], b[1..]))
  }

  /** Filtering keeps the relative order of the kept elements. */
  lemma {:induction false} FilterIsSubsequence<T>(p: T -> bool, xs: seq<T>)
    ensures IsSubsequence(Filter(p, xs), xs)
    decreases |xs|
  {
    if |xs| > 0 {
      FilterIsSubsequence(p, xs[1..]);
      if p(xs[0]) {
        assert Filter(p, xs) == [xs[0]] + Filter(p, xs[1..]);
        assert Filter(p, xs)[1..] == Filter(p, xs[1..]);
      } else {
        assert Filter(p, xs) == Filter(p, xs[1..]);
      }
    }
  }

  /** Filtering keeps every occurrence of an element satisfying `p` and
      drops every occurrence of one that does not. */
  lemma {:induction false} FilterMultiplicity<T>(p: T -> bool, xs: seq<T>, x: T)
    ensures multiset(Filter(p, xs))[x] == if p(x) then multiset(xs)[x] else 0
    decreases |xs|
  {
    if |xs| > 0 {
      FilterMultiplicity(p, xs[1..], x);
      assert xs == [xs[0]] + xs[1..];
      assert multiset(xs) == multiset([xs[0]]) + multiset(xs[1..]);
    }
  }

  /** Counting over a list extended by one element. */
  lemma {:induction false} CountSnoc<T>(p: T -> bool, xs: seq<T>, x: T)
    ensures Count(p, xs + [x]) == Count(p, xs) + (if p(x) then 1 else 0)
    decreases |xs|
  {
    if |xs| == 0 {
      assert xs + [x] == [x];
      assert [x][1..] == [];
    } else {
      assert (xs + [x])[0] == xs[0];
      assert (xs + [x])[1..] == xs[1..] + [x];
      CountSnoc(p, xs[1..], x);
    }
  }

  /** Filtering first never raises a count. */
  lemma {:induction false} CountOfFiltered<T>(p: T -> bool, q: T -> bool, xs: seq<T>)
    ensures Count(p, Filter(q, xs)) <= Count(p, xs)
    decreases |xs|
  {
    if |xs| > 0 {
      CountOfFiltered(p, q, xs[1..]);
      var rest := Filter(q, xs[1..]);
      assert xs == [xs[0]] + xs[1..];
      CountCons(p, xs[0], xs[1..]);
      if q(xs[0]) {
        assert Filter(q, xs) == [xs[0]] + rest;
        CountCons(p, xs[0], rest);
      } else {
        assert Filter(q, xs) == rest;
      }
    }
  }

  /** Counting over a list with one more element in front. */
  lemma CountCons<T>(p: T -> bool, x: T, xs: seq<T>)
    ensures Count(p, [x] + xs) == (if p(x) then 1 else 0) + Count(p, xs)
  {
    assert ([x] + xs)[0] == x;
    assert ([x] + xs)[1..] == xs;
  }

  /** Every element is counted by exactly one of `p` and its negation. */
  lemma {:induction false} CountComplement<T>(p: T -> bool, q: T -> bool, xs: seq<T>)
    requires forall x :: q(x) == !p(x)
    ensures Count(p, xs) + Count(q, xs) == |xs|
    decreases |xs|
  {
    if |xs| > 0 {
      CountComplement(p, q, xs[1..]);
    }
  }

  /** Concatenation of a list of sequences. */
  function Concat<T>(ss: seq<seq<T>>): (r: seq<T>)
    decreases |ss|
  {
    if |ss| == 0 then [] else Concat(ss[..|ss| - 1]) + ss[|ss| - 1]
  }

  /** Some element of `xs` satisfies `p`. */
  ghost predicate Any<T>(p: T -> bool, xs: seq<T>)
  {
    exists i :: 0 <= i < |xs| && p(xs[i])
  }

  /** Some element satisfies `p` exactly when one before the last does or
      the last does. */
  lemma AnyStep<T>(p: T -> bool, xs: seq<T>)
    requires |xs| > 0
    ensures Any(p, xs) <==> Any(p, xs[..|xs| - 1]) || p(xs[|xs| - 1])
  {
    var init := xs[..|xs| - 1];
    if Any(p, init) {
      var i :| 0 <= i < |init| && p(init[i]);
      assert xs[i] == init[i];
    }
    if Any(p, xs) {
      var i :| 0 <= i < |xs| && p(xs[i]);
      if i < |init| {
        assert init[i] == xs[i];
      }
    }
  }
}

=== FILE: stream_decoder.dfy ===
/** The chat-completion stream reader of `streamChat`: chunks are appended
    to a carry-over buffer, complete `\n`-terminated lines are taken out,
    `data: ` lines carry JSON payloads whose `choices[0].delta.content` is
    emitted as a fragment, and the unterminated tail waits for the next
    chunk. Before reading, the response status is classified.

    JSON parsing is not modelled: `extract` stands for
    `JSON.parse(data).choices[0]?.delta?.content`, with `None` for a
    payload that fails to parse or has no content there. Chunks are the
    text `TextDecoder` already produced. */
module StreamDecoder {
  import opened Prelude
  import opened Text
  import opened Api

  type Extractor = Str -> Option<Str>

  /** "data: " */
  const DataPrefix: Str := [0x64, 0x61, 0x74, 0x61, 0x3A, 0x20]
  /** "[DONE]" */
  const DoneSentinel: Str := [0x5B, 0x44, 0x4F, 0x4E, 0x45, 0x5D]
  /** "ReadableStream not supported" */
  const NoStreamMessage: Str := [0x52, 0x65, 0x61, 0x64, 0x61, 0x62, 0x6C, 0x65, 0x53, 0x74, 0x72, 0x65, 0x61, 0x6D, 0x20, 0x6E, 0x6F, 0x74, 0x20, 0x73, 0x75, 0x70, 0x70, 0x6F, 0x72, 0x74, 0x65, 0x64]
  /** "API Error: " */
  const ApiErrorPrefix: Str := [0x41, 0x50, 0x49, 0x20, 0x45, 0x72, 0x72, 0x6F, 0x72, 0x3A, 0x20]
  /** " - " */
  const Dash: Str := [0x20, 0x2D, 0x20]

  // ---------------------------------------------------------------------
  // Splitting on newlines
  // ---------------------------------------------------------------------

  /** The text a list of complete lines stands for: each line followed by
      its `\n`. */
  function Terminated(lines: seq<Str>): Str
  {
    if |lines| == 0 then [] else lines[0] + [NL] + Terminated(lines[1..])
  }

  predicate NoNewline(s: Str)
  {
    NL !in s
  }

  predicate NoNewlines(lines: seq<Str>)
  {
    forall i :: 0 <= i < |lines| ==> NoNewline(lines[i])
  }

  /** `buffer.split('\n')` followed by `lines.pop()`: the complete lines and
      the unterminated tail. Together they spell out the input again. */
  function SplitLines(s: Str): (r: (seq<Str>, Str))
    ensures NoNewlines(r.0) && NoNewline(r.1)
    ensures Terminated(r.0) + r.1 == s
    decreases |s|
  {
    if |s| == 0 then ([], [])
    else
      var tailSplit := SplitLines(s[1..]);
      var lines, rest := tailSplit.0, tailSplit.1;
      assert s == [s[0]] + s[1..];
      if s[0] == NL then
        SplitConsNewline(s[1..], lines, rest);
        ([[]] + lines, rest)
      else if |lines| == 0 then
        ([], [s[0]] + rest)
      else
        SplitConsLine(s[0], s[1..], lines, rest);
        ([[s[0]] + lines[0]] + lines[1..], rest)
  }

  lemma SplitConsNewline(t: Str, lines: seq<Str>, rest: Str)
    requires NoNewlines(lines) && Terminated(lines) + rest == t
    ensures NoNewlines([[]] + lines)
    ensures Terminated([[]] + lines) + rest == [NL] + t
  {
    TerminatedCons([], lines);
  }

  lemma SplitConsLine(c: CodeUnit, t: Str, lines: seq<Str>, rest: Str)
    requires c != NL && |lines| > 0
    requires NoNewlines(lines) && Terminated(lines) + rest == t
    ensures NoNewlines([[c] + lines[0]] + lines[1..])
    ensures Terminated([[c] + lines[0]] + lines[1..]) + rest == [c] + t
  {
    TerminatedConsLine(c, lines);
    Assoc([c], Terminated(lines), rest);
    NoNewlinesCons(c, lines);
  }

  /** Prepending a code unit to the first line prepends it to the text. */
  lemma TerminatedConsLine(c: CodeUnit, lines: seq<Str>)
    requires |lines| > 0
    ensures Terminated([[c] + lines[0]] + lines[1..]) == [c] + Terminated(lines)
  {
    var l0, tail := lines[0], lines[1..];
    var rem := [NL] + Terminated(tail);
    TerminatedCons([c] + l0, tail);
    Assoc([c] + l0, [NL], Terminated(tail));
    Assoc([c], l0, rem);
    assert lines == [l0] + tail;
    TerminatedCons(l0, tail);
    Assoc(l0, [NL], Terminated(tail));
  }

  lemma Assoc(a: Str, b: Str, c: Str)
    ensures (a + b) + c == a + (b + c)
  {
  }

  lemma NoNewlinesCons(c: CodeUnit, lines: seq<Str>)
    requires c != NL && |lines| > 0 && NoNewlines(lines)
    ensures NoNewlines([[c] + lines[0]] + lines[1..])
  {
    assert NoNewline(lines[0]);
    assert NL !in [c] + lines[0];
    var r := [[c] + lines[0]] + lines[1..];
    forall i | 0 <= i < |r| ensures NoNewline(r[i]) {
      if i > 0 {
        assert r[i] == lines[i];
      }
    }
  }

  lemma TerminatedCons(l: Str, ls: seq<Str>)
    ensures Terminated([l] + ls) == l + [NL] + Terminated(ls)
  {
    assert ([l] + ls)[1..] == ls;
  }

  lemma {:induction false} TerminatedAppend(a: seq<Str>, b: seq<Str>)
    ensures Terminated(a + b) == Terminated(a) + Terminated(b)
    decreases |a|
  {
    if |a| == 0 {
      assert a + b == b;
    } else {
      assert (a + b)[1..] == a[1..] + b;
      TerminatedAppend(a[1..], b);
    }
  }

  /** The split is the only way to write a text as newline-free complete
      lines followed by a newline-free tail. */
  lemma {:induction false} SplitLinesUnique(lines: seq<Str>, rest: Str)
    requires NoNewlines(lines) && NoNewline(rest)
    ensures SplitLines(Terminated(lines) + rest) == (lines, rest)
    decreases |Terminated(lines) + rest|
  {
    var s := Terminated(lines) + rest;
    if |lines| == 0 {
      RestUnique(rest);
    } else {
      var l := lines[0];
      TerminatedCons(l, lines[1..]);
      assert lines == [l] + lines[1..];
      if |l| == 0 {
        assert s == [NL] + (Terminated(lines[1..]) + rest);
        assert s[1..] == Terminated(lines[1..]) + rest;
        SplitLinesUnique(lines[1..], rest);
      } else {
        assert l[0] in l;
        var lines' := [l[1..]] + lines[1..];
        TerminatedCons(l[1..], lines[1..]);
        assert l == [l[0]] + l[1..];
        assert s == [l[0]] + (Terminated(lines') + rest);
        assert s[1..] == Terminated(lines') + rest;
        assert NoNewline(l[1..]) by {
          forall c | c in l[1..] ensures c != NL {
            assert c in l;
          }
        }
        assert NoNewlines(lines');
        SplitLinesUnique(lines', rest);
      }
    }
  }

  lemma {:induction false} RestUnique(rest: Str)
    requires NoNewline(rest)
    ensures SplitLines(rest) == ([], rest)
    decreases |rest|
  {
    if |rest| > 0 {
      assert rest[0] in rest;
      assert NoNewline(rest[1..]) by {
        forall c | c in rest[1..] ensures c != NL {
          assert c in rest;
        }
      }
      RestUnique(rest[1..]);
      assert rest == [rest[0]] + rest[1..];
    }
  }

  /** Appending a chunk to a buffer never disturbs the lines already
      complete in it: the new complete lines are the old ones followed by
      the lines completed in the old tail plus the chunk. */
  lemma SplitAppend(a: Str, b: Str)
    ensures SplitLines(a + b).0 == SplitLines(a).0 + SplitLines(SplitLines(a).1 + b).0
    ensures SplitLines(a + b).1 == SplitLines(SplitLines(a).1 + b).1
  {
    var (la, ra) := SplitLines(a);
    var (lb, rb) := SplitLines(ra + b);
    assert Terminated(la + lb) + rb == a + b by {
      TerminatedAppend(la, lb);
      Assoc(Terminated(la), Terminated(lb), rb);
      Assoc(Terminated(la), ra, b);
    }
    NoNewlinesAppend(la, lb);
    SplitLinesUnique(la + lb, rb);
  }

  lemma NoNewlinesAppend(a: seq<Str>, b: seq<Str>)
    requires NoNewlines(a) && NoNewlines(b)
    ensures NoNewlines(a + b)
  {
    forall i | 0 <= i < |a + b|
      ensures NoNewline((a + b)[i])
    {
      if i < |a| {
        assert (a + b)[i] == a[i];
      } else {
        assert (a + b)[i] == b[i - |a|];
      }
    }
  }

  // ---------------------------------------------------------------------
  // Interpreting one line
  // ---------------------------------------------------------------------

  /** The payload of a significant line: what follows `data: ` once the
      line is trimmed. Blank lines and all other lines have none. */
  function DataPayload(line: Str): (r: Option<Str>)
    ensures r.Some? ==> StartsWith(Trim(line), DataPrefix) && r.value == Trim(line)[|DataPrefix|..]
    ensures r.None? ==> !StartsWith(Trim(line), DataPrefix)
  {
    var trimmed := Trim(line);
    if |trimmed| == 0 || !StartsWith(trimmed, DataPrefix) then None
    else Some(trimmed[6..])
  }

  /** The fragment one complete line emits, if any. */
  function LineFragment(line: Str, extract: Extractor): (r: Option<Str>)
    // blank, non-`data: ` and `[DONE]` lines are skipped
    ensures AllWhite(line) ==> r.None?
    ensures DataPayload(line).None? ==> r.None?
    ensures DataPayload(line) == Some(DoneSentinel) ==> r.None?
    // a payload that does not yield content is skipped
    ensures DataPayload(line).Some? && extract(DataPayload(line).value).None? ==> r.None?
    // whatever is emitted is the non-empty content of a data payload
    ensures r.Some? ==> |r.value| > 0
    ensures r.Some? ==> DataPayload(line).Some? && DataPayload(line).value != DoneSentinel
                        && extract(DataPayload(line).value) == r
    // a data line other than `[DONE]` with non-empty content emits it
    ensures DataPayload(line).Some? && DataPayload(line).value != DoneSentinel
            && extract(DataPayload(line).value).Some? && |extract(DataPayload(line).value).value| > 0 ==>
      r == extract(DataPayload(line).value)
  {
    match DataPayload(line)
    case None => None
    case Some(data) =>
      if data == DoneSentinel then None
      else match extract(data)
        case None => None
        case Some(content) => if |content| > 0 then Some(content) else None
  }

  /** A line that, once trimmed, does not start with `data: ` is skipped. */
  lemma NonDataLineSkipped(line: Str, extract: Extractor)
    ensures !StartsWith(Trim(line), DataPrefix) ==> LineFragment(line, extract).None?
  {
  }

  /** The fragments a list of complete lines emits, in line order. */
  function Fragments(lines: seq<Str>, extract: Extractor): (r: seq<Str>)
    ensures |r| <= |lines|
    ensures forall i :: 0 <= i < |r| ==> |r[i]| > 0
    decreases |lines|
  {
    if |lines| == 0 then []
    else
      var last := lines[|lines| - 1];
      Fragments(lines[..|lines| - 1], extract)
        + (match LineFragment(last, extract) case Some(f) => [f] case None => [])
  }

  /** A single line emits its fragment, if it has one, and nothing else. */
  lemma FragmentsOfLine(line: Str, extract: Extractor)
    ensures Fragments([line], extract)
      == (if LineFragment(line, extract).Some? then [LineFragment(line, extract).value] else [])
  {
    assert [line][..0] == [];
  }

  /** Some line of `lines` yields the fragment `f`. */
  ghost predicate Yields(lines: seq<Str>, extract: Extractor, f: Str)
  {
    Any(Emits(extract, f), lines)
  }

  /** The test "this line emits `f`". */
  function Emits(extract: Extractor, f: Str): Str -> bool
  {
    (line: Str) => LineFragment(line, extract) == Some(f)
  }

  /** A fragment is emitted exactly when some line yields it. */
  lemma {:induction false} FragmentsMembership(lines: seq<Str>, extract: Extractor, f: Str)
    ensures f in Fragments(lines, extract) <==> Yields(lines, extract, f)
    decreases |lines|
  {
    if |lines| > 0 {
      var init := lines[..|lines| - 1];
      var last := lines[|lines| - 1];
      FragmentsMembership(init, extract, f);
      FragmentsStep(lines, extract);
      YieldsStep(lines, extract, f);
      InAppendOption(Fragments(init, extract), LineFragment(last, extract), f);
    }
  }

  lemma InAppendOption(a: seq<Str>, o: Option<Str>, f: Str)
    ensures f in a + (if o.Some? then [o.value] else []) <==> f in a || o == Some(f)
  {
  }

  lemma FragmentsStep(lines: seq<Str>, extract: Extractor)
    requires |lines| > 0
    ensures Fragments(lines, extract)
      == Fragments(lines[..|lines| - 1], extract)
         + (if LineFragment(lines[|lines| - 1], extract).Some?
            then [LineFragment(lines[|lines| - 1], extract).value] else [])
  {
  }

  lemma YieldsStep(lines: seq<Str>, extract: Extractor, f: Str)
    requires |lines| > 0
    ensures Yields(lines, extract, f)
      <==> Yields(lines[..|lines| - 1], extract, f) || LineFragment(lines[|lines| - 1], extract) == Some(f)
  {
    AnyStep(Emits(extract, f), lines);
  }

  lemma {:induction false} FragmentsAppend(a: seq<Str>, b: seq<Str>, extract: Extractor)
    ensures Fragments(a + b, extract) == Fragments(a, extract) + Fragments(b, extract)
    decreases |b|
  {
    if |b| == 0 {
      assert a + b == a;
    } else {
      assert (a + b)[..|a + b| - 1] == a + b[..|b| - 1];
      FragmentsAppend(a, b[..|b| - 1], extract);
    }
  }

  // ---------------------------------------------------------------------
  // The chunk-fed state machine
  // ---------------------------------------------------------------------

  /** The reader's state between chunks: the carry-over buffer and the
      fragments handed to `onChunk` so far. */
  datatype Decoder = Decoder(buffer: Str, emitted: seq<Str>)

  const Start := Decoder([], [])

  /** One iteration of the read loop. */
  function Feed(d: Decoder, chunk: Str, extract: Extractor): (r: Decoder)
    ensures NoNewline(r.buffer)
    ensures Terminated(SplitLines(d.buffer + chunk).0) + r.buffer == d.buffer + chunk
  {
    var (lines, rest) := SplitLines(d.buffer + chunk);
    Decoder(rest, d.emitted + Fragments(lines, extract))
  }

  /** The state after a sequence of chunks. */
  function Run(chunks: seq<Str>, extract: Extractor): Decoder
    decreases |chunks|
  {
    if |chunks| == 0 then Start
    else Feed(Run(chunks[..|chunks| - 1], extract), chunks[|chunks| - 1], extract)
  }

  /** After any sequence of chunks the buffer is exactly the text after the
      last newline of everything received, and the emitted fragments are
      those of the complete lines received. Consequently the output does not
      depend on where the transport cut the text into chunks. */
  lemma {:induction false} RunMatchesLines(chunks: seq<Str>, extract: Extractor)
    ensures Run(chunks, extract).buffer == SplitLines(Concat(chunks)).1
    ensures Run(chunks, extract).emitted == Fragments(SplitLines(Concat(chunks)).0, extract)
    decreases |chunks|
  {
    if |chunks| > 0 {
      var init := chunks[..|chunks| - 1];
      var last := chunks[|chunks| - 1];
      RunMatchesLines(init, extract);
      assert Concat(chunks) == Concat(init) + last;
      SplitAppend(Concat(init), last);
      FragmentsAppend(SplitLines(Concat(init)).0, SplitLines(SplitLines(Concat(init)).1 + last).0, extract);
    }
  }

  /** Two chunkings of the same text produce the same fragments and leave
      the same buffer. */
  lemma ChunkingIrrelevant(c1: seq<Str>, c2: seq<Str>, extract: Extractor)
    requires Concat(c1) == Concat(c2)
    ensures Run(c1, extract) == Run(c2, extract)
  {
    RunMatchesLines(c1, extract);
    RunMatchesLines(c2, extract);
  }

  /** The inner `for (const line of lines)` loop: hands the fragment of
      each complete line, in order, to `onChunk`. */
  method EmitLines(lines: seq<Str>, extract: Extractor) returns (emitted: seq<Str>)
    ensures emitted == Fragments(lines, extract)
  {
    emitted := [];
    var j := 0;
    while j < |lines|
      invariant 0 <= j <= |lines|
      invariant emitted == Fragments(lines[..j], extract)
    {
      match LineFragment(lines[j], extract) {
        case Some(f) => emitted := emitted + [f];
        case None =>
      }
      assert lines[..j + 1][..j] == lines[..j];
      j := j + 1;
    }
    assert lines[..j] == lines;
  }

  /** The read loop of `streamChat`, chunk by chunk. */
  method ReadLoop(chunks: seq<Str>, extract: Extractor) returns (emitted: seq<Str>, buffer: Str)
    ensures NoNewline(buffer)
    ensures Terminated(SplitLines(Concat(chunks)).0) + buffer == Concat(chunks)
    ensures emitted == Fragments(SplitLines(Concat(chunks)).0, extract)
    ensures forall i :: 0 <= i < |emitted| ==> |emitted[i]| > 0
  {
    emitted, buffer := [], [];
    var i := 0;
    while i < |chunks|
      invariant 0 <= i <= |chunks|
      invariant buffer == SplitLines(Concat(chunks[..i])).1
      invariant emitted == Fragments(SplitLines(Concat(chunks[..i])).0, extract)
    {
      ghost var before := Concat(chunks[..i]);
      var split := SplitLines(buffer + chunks[i]);
      var newFragments := EmitLines(split.0, extract);
      SplitAppend(before, chunks[i]);
      FragmentsAppend(SplitLines(before).0, split.0, extract);
      emitted, buffer := emitted + newFragments, split.1;
      assert chunks[..i + 1] == chunks[..i] + [chunks[i]];
      assert Concat(chunks[..i + 1]) == before + chunks[i];
      i := i + 1;
    }
    assert chunks[..i] == chunks;
  }

  // ---------------------------------------------------------------------
  // The whole call
  // ---------------------------------------------------------------------

  /** What the transport delivers once the body is being read: the decoded
      chunks, then either the end of the stream or a thrown error. */
  datatype Transport = Transport(chunks: seq<Str>, failure: Option<Str>)

  /** A response to the completion request: its status, what `json()` and
      `text()` yield on error paths, and the readable body if any. */
  datatype ChatResponse = ChatResponse(status: nat, json: ErrorBody, text: Str, body: Option<Transport>)

  /** The outcome of `fetch`: a thrown network error or a response. */
  datatype FetchResult = NetworkFailure(message: Str) | Received(response: ChatResponse)

  /** How the call ends: `onFinish` or `onError`, never both. */
  datatype End = Finished | Failed(error: ApiError)

  /** The fragments passed to `onChunk`, in order, and how the call ended. */
  datatype StreamOutcome = StreamOutcome(fragments: seq<Str>, end: End)

  /** The message of the generic error for a failed response,
      `API Error: <status> - <body text>`. */
  function HttpErrorMessage(status: nat, text: Str): (m: Str)
    ensures StartsWith(m, ApiErrorPrefix)
    ensures Contains(m, Decimal(status)) && Contains(m, text)
  {
    var m := ApiErrorPrefix + Decimal(status) + Dash + text;
    ContainsInfix(ApiErrorPrefix, Decimal(status), Dash + text);
    assert m == ApiErrorPrefix + Decimal(status) + (Dash + text);
    ContainsInfix(ApiErrorPrefix + Decimal(status) + Dash, text, []);
    assert m == ApiErrorPrefix + Decimal(status) + Dash + text + [];
    assert m[..|ApiErrorPrefix|] == ApiErrorPrefix;
    m
  }

  /** `streamChat`: classify the response, then read the body. */
  function StreamChat(fetch: FetchResult, extract: Extractor): (o: StreamOutcome)
    // a request that never got a response fails with the transport's error
    ensures fetch.NetworkFailure? ==> o == StreamOutcome([], Failed(GenericError(fetch.message)))
    // 401/403: an AuthError, checked before `ok`, and nothing is emitted
    ensures fetch.Received? && IsAuthStatus(fetch.response.status) ==>
      o == StreamOutcome([], Failed(AuthError(fetch.response.status, AuthDetail(fetch.response.json))))
    // any other failed status: a generic error naming the status, nothing emitted
    ensures fetch.Received? && !IsAuthStatus(fetch.response.status) && !IsOk(fetch.response.status) ==>
      && o.fragments == []
      && o.end.Failed? && o.end.error.GenericError?
      && Contains(o.end.error.Message(), Decimal(fetch.response.status))
    // a complete stream: the fragments of its complete lines, then onFinish
    ensures fetch.Received? && IsOk(fetch.response.status) && fetch.response.body.Some?
            && fetch.response.body.value.failure.None? ==>
      o == StreamOutcome(Fragments(SplitLines(Concat(fetch.response.body.value.chunks)).0, extract), Finished)
    // a stream cut by a transport error: what was read so far, then onError
    ensures fetch.Received? && IsOk(fetch.response.status) && fetch.response.body.Some?
            && fetch.response.body.value.failure.Some? ==>
      o == StreamOutcome(Fragments(SplitLines(Concat(fetch.response.body.value.chunks)).0, extract),
                         Failed(GenericError(fetch.response.body.value.failure.value)))
    // an ok response without a readable body fails, nothing emitted
    ensures fetch.Received? && IsOk(fetch.response.status) && fetch.response.body.None? ==>
      o == StreamOutcome([], Failed(GenericError(NoStreamMessage)))
    ensures o.end.Finished? ==> fetch.Received? && IsOk(fetch.response.status)
    ensures forall i :: 0 <= i < |o.fragments| ==> |o.fragments[i]| > 0
  {
    match fetch
    case NetworkFailure(message) => StreamOutcome([], Failed(GenericError(message)))
    case Received(response) =>
      match ThrowIfAuthError(response.status, response.json)
      case Some(authError) => StreamOutcome([], Failed(authError))
      case None =>
        if !IsOk(response.status) then
          StreamOutcome([], Failed(GenericError(HttpErrorMessage(response.status, response.text))))
        else match response.body
          case None => StreamOutcome([], Failed(GenericError(NoStreamMessage)))
          case Some(transport) =>
            var d := Run(transport.chunks, extract);
            RunMatchesLines(transport.chunks, extract);
            match transport.failure
            case None => StreamOutcome(d.emitted, Finished)
            case Some(message) => StreamOutcome(d.emitted, Failed(GenericError(message)))
  }
}

=== FILE: text.dfy ===
/** JavaScript strings as sequences of UTF-16 code units, and the handful of
    `String.prototype` operations the front end relies on: `trim`,
    `startsWith`, `includes`, `slice`, `toLowerCase` (ASCII part only) and
    the decimal rendering of a status code in a template literal. */
module Text {

  /** One UTF-16 code unit; `charCodeAt` returns exactly these values. */
  newtype CodeUnit = c: int | 0 <= c < 0x1_0000

  /** A JavaScript string: `length` is the number of code units. */
  type Str = seq<CodeUnit>

  const NL: CodeUnit := 0x0A

  /** The code units `String.prototype.trim` removes: the ECMAScript
      WhiteSpace set (TAB, VT, FF, SPACE, NBSP, ZWNBSP and category Zs)
      together with the LineTerminator set (LF, CR, LS, PS). */
  predicate IsWhite(c: CodeUnit)
  {
    c == 0x09 || c == 0x0A || c == 0x0B || c == 0x0C || c == 0x0D || c == 0x20
    || c == 0xA0 || c == 0x1680 || (0x2000 <= c <= 0x200A) || c == 0x2028
    || c == 0x2029 || c == 0x202F || c == 0x205F || c == 0x3000 || c == 0xFEFF
  }

  predicate AllWhite(s: Str)
  {
    forall i :: 0 <= i < |s| ==> IsWhite(s[i])
  }

  function TrimStart(s: Str): (r: Str)
    ensures |r| <= |s| && r == s[|s| - |r|..]
    ensures AllWhite(s[..|s| - |r|])
    ensures |r| > 0 ==> !IsWhite(r[0])
    decreases |s|
  {
    if |s| > 0 && IsWhite(s[0]) then TrimStart(s[1..]) else s
  }

  function TrimEnd(s: Str): (r: Str)
    ensures |r| <= |s| && r == s[..|r|]
    ensures AllWhite(s[|r|..])
    ensures |r| > 0 ==> !IsWhite(r[|r| - 1])
    decreases |s|
  {
    if |s| > 0 && IsWhite(s[|s| - 1]) then TrimEnd(s[..|s| - 1]) else s
  }

  /** `r` is the infix `s[i..j]` and everything around it is white space. */
  predicate Padded(s: Str, r: Str, i: int, j: int)
  {
    0 <= i <= j <= |s| && r == s[i..j] && AllWhite(s[..i]) && AllWhite(s[j..])
  }

  /** `String.prototype.trim`: the longest infix of `s` that neither starts
      nor ends with white space. */
  function Trim(s: Str): (r: Str)
    ensures exists i, j :: Padded(s, r, i, j)
    ensures |r| > 0 ==> !IsWhite(r[0]) && !IsWhite(r[|r| - 1])
    ensures |r| == 0 <==> AllWhite(s)
  {
    TrimEnds(s);
    TrimEnd(TrimStart(s))
  }

  lemma TrimEnds(s: Str)
    ensures var r := TrimEnd(TrimStart(s));
      && (exists i, j :: Padded(s, r, i, j))
      && (|r| > 0 ==> !IsWhite(r[0]) && !IsWhite(r[|r| - 1]))
      && (|r| == 0 <==> AllWhite(s))
  {
    TrimPadded(s);
    TrimNonWhiteEnds(s);
  }

  lemma TrimPadded(s: Str)
    ensures var t := TrimStart(s); Padded(s, TrimEnd(t), |s| - |t|, |s| - |t| + |TrimEnd(t)|)
  {
    var t := TrimStart(s);
    var r := TrimEnd(t);
    PadCompose(s, t, r);
  }

  lemma TrimNonWhiteEnds(s: Str)
    ensures var r := TrimEnd(TrimStart(s));
      && (|r| > 0 ==> !IsWhite(r[0]) && !IsWhite(r[|r| - 1]))
      && (|r| == 0 <==> AllWhite(s))
  {
    var t := TrimStart(s);
    var r := TrimEnd(t);
    PadEnds(s, t, r);
  }

  /** A white prefix cut off, then a white suffix cut off, leaves an infix
      padded by both. */
  lemma PadCompose(s: Str, t: Str, r: Str)
    requires |t| <= |s| && t == s[|s| - |t|..] && AllWhite(s[..|s| - |t|])
    requires |r| <= |t| && r == t[..|r|] && AllWhite(t[|r|..])
    ensures Padded(s, r, |s| - |t|, |s| - |t| + |r|)
  {
    var k := |s| - |t|;
    SliceOfSuffix(s, k, |r|);
    SuffixOfSuffix(s, k, |r|);
  }

  lemma SliceOfSuffix(s: Str, k: nat, n: nat)
    requires k + n <= |s|
    ensures s[k..][..n] == s[k..k + n]
  {
  }

  lemma SuffixOfSuffix(s: Str, k: nat, n: nat)
    requires k + n <= |s|
    ensures s[k..][n..] == s[k + n..]
  {
  }

  /** The same two cuts, when the first leaves a non-white start and the
      second a non-white end, leave an infix with non-white ends that is
      empty only for an all-white string. */
  lemma PadEnds(s: Str, t: Str, r: Str)
    requires |t| <= |s| && t == s[|s| - |t|..] && AllWhite(s[..|s| - |t|])
    requires |t| > 0 ==> !IsWhite(t[0])
    requires |r| <= |t| && r == t[..|r|] && AllWhite(t[|r|..])
    requires |r| > 0 ==> !IsWhite(r[|r| - 1])
    ensures |r| > 0 ==> !IsWhite(r[0]) && !IsWhite(r[|r| - 1])
    ensures |r| == 0 <==> AllWhite(s)
  {
    var k := |s| - |t|;
    if |r| > 0 {
      assert r[0] == t[0];
      assert t[0] == s[k];
    } else {
      assert t[|r|..] == t;
      assert |t| == 0;
      assert s[..k] == s;
    }
  }

  /** Trimming finds the core of any string padded with white space: a
      string that is empty or has non-white ends comes back unchanged from
      any white padding on either side. */
  lemma TrimUnique(a: Str, x: Str, b: Str)
    requires AllWhite(a) && AllWhite(b)
    requires |x| == 0 || (!IsWhite(x[0]) && !IsWhite(x[|x| - 1]))
    ensures Trim(a + x + b) == x
  {
    var s := a + x + b;
    if |x| == 0 {
      forall i | 0 <= i < |s|
        ensures IsWhite(s[i])
      {
        if i < |a| {
          assert s[i] == a[i];
        } else {
          assert s[i] == b[i - |a|];
        }
      }
    } else {
      assert s == a + (x + b);
      TrimStartWhitePrefix(a, x + b);
      TrimEndWhiteSuffix(x, b);
    }
  }

  /** Trimming twice is trimming once. */
  lemma TrimIdempotent(s: Str)
    ensures Trim(Trim(s)) == Trim(s)
  {
    var r := Trim(s);
    assert [] + r + [] == r;
    TrimUnique([], r, []);
  }

  lemma {:induction false} TrimStartWhitePrefix(a: Str, y: Str)
    requires AllWhite(a) && (|y| == 0 || !IsWhite(y[0]))
    ensures TrimStart(a + y) == y
    decreases |a|
  {
    if |a| == 0 {
      assert a + y == y;
    } else {
      assert (a + y)[0] == a[0];
      assert (a + y)[1..] == a[1..] + y;
      TrimStartWhitePrefix(a[1..], y);
    }
  }

  lemma {:induction false} TrimEndWhiteSuffix(y: Str, b: Str)
    requires AllWhite(b) && (|y| == 0 || !IsWhite(y[|y| - 1]))
    ensures TrimEnd(y + b) == y
    decreases |b|
  {
    if |b| == 0 {
      assert y + b == y;
    } else {
      var n := |y + b|;
      assert (y + b)[n - 1] == b[|b| - 1];
      assert (y + b)[..n - 1] == y + b[..|b| - 1];
      TrimEndWhiteSuffix(y, b[..|b| - 1]);
    }
  }

  /** `s.startsWith(prefix)`. */
  predicate StartsWith(s: Str, prefix: Str)
  {
    |prefix| <= |s| && s[..|prefix|] == prefix
  }

  /** `q` occurs in `s` at position `i`. */
  predicate OccursAt(s: Str, q: Str, i: nat)
  {
    i + |q| <= |s| && s[i..i + |q|] == q
  }

  /** `s.includes(q)`; the empty string is included in every string. */
  predicate Contains(s: Str, q: Str)
  {
    exists i: nat | i <= |s| :: OccursAt(s, q, i)
  }

  /** A string cannot include `q` when it lacks `q`'s first code unit. */
  lemma FirstUnitAbsent(s: Str, q: Str)
    requires |q| > 0 && q[0] !in s
    ensures !Contains(s, q)
  {
    forall i: nat | i <= |s|
      ensures !OccursAt(s, q, i)
    {
      if i + |q| <= |s| {
        assert s[i..i + |q|][0] == s[i];
        assert s[i] in s;
      }
    }
  }

  /** A string includes each of its own infixes. */
  lemma ContainsInfix(a: Str, q: Str, b: Str)
    ensures Contains(a + q + b, q)
  {
    var s := a + q + b;
    assert s[|a|..|a| + |q|] == q;
    assert OccursAt(s, q, |a|);
  }

  /** ASCII case folding; other code units are left as they are. */
  function AsciiLower(c: CodeUnit): (d: CodeUnit)
  {
    if 0x41 <= c <= 0x5A then c + 0x20 else c
  }

  /** `toLowerCase` restricted to the ASCII letters. */
  function Lower(s: Str): (r: Str)
    ensures |r| == |s|
    ensures forall i :: 0 <= i < |s| ==> r[i] == AsciiLower(s[i])
  {
    seq(|s|, i requires 0 <= i < |s| => AsciiLower(s[i]))
  }

  /** Lower-casing keeps white space and non-white space apart, so a
      string is blank exactly when its lower-cased form is. */
  lemma LowerKeepsBlank(s: Str)
    ensures AllWhite(Lower(s)) <==> AllWhite(s)
  {
    assert forall i :: 0 <= i < |s| ==> (IsWhite(Lower(s)[i]) <==> IsWhite(s[i]));
  }

  predicate IsDigit(c: CodeUnit)
  {
    0x30 <= c <= 0x39
  }

  /** The decimal rendering of a number, as `${n}` produces for a
      non-negative integer. */
  function Decimal(n: nat): (r: Str)
    ensures |r| > 0
    ensures forall i :: 0 <= i < |r| ==> IsDigit(r[i])
    ensures n > 0 ==> r[0] != 0x30
  {
    if n < 10 then [(0x30 + n) as CodeUnit] else Decimal(n / 10) + [(0x30 + n % 10) as CodeUnit]
  }

  /** The number a string of decimal digits denotes. */
  function DigitsValue(s: Str): nat
    requires forall i :: 0 <= i < |s| ==> IsDigit(s[i])
  {
    if |s| == 0 then 0
    else
      assert IsDigit(s[|s| - 1]);
      10 * DigitsValue(s[..|s| - 1]) + (s[|s| - 1] as int - 0x30)
  }

  /** Rendering then reading back a number gives the number. */
  lemma {:induction false} DecimalRoundTrip(n: nat)
    ensures DigitsValue(Decimal(n)) == n
  {
    if n >= 10 {
      DecimalRoundTrip(n / 10);
      var d := Decimal(n);
      assert d[..|d| - 1] == Decimal(n / 10);
    }
  }
}

=== FILE: token_estimator.dfy ===
/** The client-side token estimator: a per-code-unit weight (CJK 1.4,
    ASCII letter 0.3, anything else 0.5) rounded up, a fixed framing cost
    per message and for the implicit system prompt, a fixed cost per image,
    and the bucketing of an estimate against the configured input limit.

    The source accumulates the weights in IEEE doubles; here they are exact
    tenths (14, 3, 5), so at an exact integer boundary the source's
    `Math.ceil` can land one above the value computed here. The status
    ratios are compared exactly, by integer cross-multiplication; the
    source's double division can differ only when the ratio lies within
    one rounding error of a threshold. */
module TokenEstimator {
  import opened Prelude
  import opened Text
  import opened Api

  const DefaultMaxModelLen: int := 4096
  const DefaultReservedOutputTokens: int := 512
  /** Chat-template framing per message. */
  const MessageOverheadTokens: nat := 10
  /** The system prompt the backend always inserts. */
  const SystemPromptTokens: nat := 16
  /** The fixed cost of one image. */
  const ImageTokens: nat := 1225

  // ---------------------------------------------------------------------
  // Configuration
  // ---------------------------------------------------------------------

  /** The module state of the estimator. */
  datatype TokenConfig = TokenConfig(maxModelLen: int, reservedOutputTokens: int, maxInputTokens: int, loaded: bool)

  const InitialConfig := TokenConfig(DefaultMaxModelLen, DefaultReservedOutputTokens,
                                     DefaultMaxModelLen - DefaultReservedOutputTokens, false)

  /** The optional fields of the configuration endpoint's body. */
  datatype ConfigFields = ConfigFields(maxModelLen: Option<int>, reservedOutputTokens: Option<int>, maxInputTokens: Option<int>)

  /** What the configuration request produced: a thrown network error, or
      a response with its `ok` flag and its parsed body (`None` when
      `res.json()` throws). */
  datatype ConfigFetch = FetchThrew | Responded(ok: bool, body: Option<ConfigFields>)

  function OrElse(o: Option<int>, default: int): int
  {
    match o
    case Some(v) => v
    case None => default
  }

  /** The configuration a successful response installs. */
  function DeriveConfig(f: ConfigFields): (c: TokenConfig)
    ensures c.loaded
    ensures f.maxModelLen.None? ==> c.maxModelLen == DefaultMaxModelLen
    ensures f.maxModelLen.Some? ==> c.maxModelLen == f.maxModelLen.value
    ensures f.reservedOutputTokens.None? ==> c.reservedOutputTokens == DefaultReservedOutputTokens
    ensures f.reservedOutputTokens.Some? ==> c.reservedOutputTokens == f.reservedOutputTokens.value
    // a missing input limit is derived from the values just installed
    ensures f.maxInputTokens.None? ==> c.maxInputTokens == c.maxModelLen - c.reservedOutputTokens
    ensures f.maxInputTokens.Some? ==> c.maxInputTokens == f.maxInputTokens.value
  {
    var modelLen := OrElse(f.maxModelLen, DefaultMaxModelLen);
    var reserved := OrElse(f.reservedOutputTokens, DefaultReservedOutputTokens);
    TokenConfig(modelLen, reserved, OrElse(f.maxInputTokens, modelLen - reserved), true)
  }

  /** `fetchTokenConfig`: load once; a failed or non-ok request keeps the
      current values. */
  function FetchTokenConfig(cfg: TokenConfig, fetch: ConfigFetch): (r: TokenConfig)
    ensures cfg.loaded ==> r == cfg
    ensures r.loaded <==> cfg.loaded || (fetch.Responded? && fetch.ok && fetch.body.Some?)
    ensures !r.loaded ==> r == cfg
    ensures !cfg.loaded && r.loaded ==> r == DeriveConfig(fetch.body.value)
  {
    if cfg.loaded then cfg
    else match fetch
      case Responded(true, Some(fields)) => DeriveConfig(fields)
      case _ => cfg
  }

  /** The configuration after a series of calls to `fetchTokenConfig`. */
  function FetchAll(cfg: TokenConfig, fetches: seq<ConfigFetch>): TokenConfig
    decreases |fetches|
  {
    if |fetches| == 0 then cfg
    else FetchTokenConfig(FetchAll(cfg, fetches[..|fetches| - 1]), fetches[|fetches| - 1])
  }

  /** Once loaded, no later call changes the configuration; before that, the
      limit is the default one. */
  lemma {:induction false} LoadedConfigIsStable(cfg: TokenConfig, fetches: seq<ConfigFetch>)
    requires cfg.loaded
    ensures FetchAll(cfg, fetches) == cfg
    decreases |fetches|
  {
    if |fetches| > 0 {
      LoadedConfigIsStable(cfg, fetches[..|fetches| - 1]);
    }
  }

  /** The configuration is the one the first successful response
      installed, or the initial one when none succeeded. */
  lemma {:induction false} FirstSuccessWins(fetches: seq<ConfigFetch>, k: nat)
    requires k < |fetches| && fetches[k].Responded? && fetches[k].ok && fetches[k].body.Some?
    requires forall j :: 0 <= j < k ==> !(fetches[j].Responded? && fetches[j].ok && fetches[j].body.Some?)
    ensures FetchAll(InitialConfig, fetches) == DeriveConfig(fetches[k].body.value)
    decreases |fetches|
  {
    if |fetches| - 1 == k {
      NoSuccessKeepsConfig(InitialConfig, fetches[..k]);
    } else {
      var init := fetches[..|fetches| - 1];
      assert forall j :: 0 <= j < k ==> init[j] == fetches[j];
      FirstSuccessWins(init, k);
    }
  }

  lemma {:induction false} NoSuccessKeepsConfig(cfg: TokenConfig, fetches: seq<ConfigFetch>)
    requires !cfg.loaded
    requires forall j :: 0 <= j < |fetches| ==> !(fetches[j].Responded? && fetches[j].ok && fetches[j].body.Some?)
    ensures FetchAll(cfg, fetches) == cfg
    decreases |fetches|
  {
    if |fetches| > 0 {
      NoSuccessKeepsConfig(cfg, fetches[..|fetches| - 1]);
    }
  }

  /** Before any load the input limit is 4096 - 512 = 3584, and a body that
      omits every field yields the same limit. */
  lemma DefaultLimit()
    ensures InitialConfig.maxInputTokens == 3584 && !InitialConfig.loaded
    ensures DeriveConfig(ConfigFields(None, None, None)).maxInputTokens == 3584
  {
  }

  // ---------------------------------------------------------------------
  // Text
  // ---------------------------------------------------------------------

  /** The CJK ranges of `isCJK`, as written. */
  predicate IsCJK(code: CodeUnit)
  {
    (0x3000 <= code <= 0x9FFF)
    || (0xAC00 <= code <= 0xD7AF)
    || (0xF900 <= code <= 0xFAFF)
    || (0x1100 <= code <= 0x11FF)
    || (0x3130 <= code <= 0x318F)
  }

  predicate IsAsciiLetter(code: CodeUnit)
  {
    (0x41 <= code <= 0x5A) || (0x61 <= code <= 0x7A)
  }

  datatype CharClass = Cjk | AsciiLetter | OtherChar

  /** The branch of the estimator's loop a code unit takes: CJK is checked
      first, ASCII letters second. */
  function Classify(code: CodeUnit): CharClass
  {
    if IsCJK(code) then Cjk else if IsAsciiLetter(code) then AsciiLetter else OtherChar
  }

  /** Every code unit is in exactly one class; no ASCII letter is CJK, and
      the Hangul compatibility range adds nothing to the first range, so
      CJK is exactly the union of four disjoint ranges. */
  lemma ClassesPartition(code: CodeUnit)
    ensures Classify(code) == Cjk <==> IsCJK(code)
    ensures Classify(code) == AsciiLetter <==> IsAsciiLetter(code)
    ensures Classify(code) == OtherChar <==> !IsCJK(code) && !IsAsciiLetter(code)
    ensures IsAsciiLetter(code) ==> !IsCJK(code)
    ensures IsCJK(code) <==> (0x1100 <= code <= 0x11FF) || (0x3000 <= code <= 0x9FFF)
                             || (0xAC00 <= code <= 0xD7AF) || (0xF900 <= code <= 0xFAFF)
  {
  }

  /** Neither CJK nor an ASCII letter: digits, spaces, punctuation and
      every other script. */
  predicate IsOtherUnit(code: CodeUnit)
  {
    !IsCJK(code) && !IsAsciiLetter(code)
  }

  /** The weight of one code unit, in tenths of a token: 1.4 for CJK, 0.3
      for an ASCII letter, 0.5 for anything else. */
  function WeightTenths(code: CodeUnit): (w: nat)
    ensures IsCJK(code) ==> w == 14
    ensures IsAsciiLetter(code) ==> w == 3
    ensures IsOtherUnit(code) ==> w == 5
    ensures 3 <= w <= 14
  {
    match Classify(code)
    case Cjk => 14
    case AsciiLetter => 3
    case OtherChar => 5
  }

  /** The running total of the loop, in tenths of a token. */
  function SumTenths(s: Str): nat
    decreases |s|
  {
    if |s| == 0 then 0 else SumTenths(s[..|s| - 1]) + WeightTenths(s[|s| - 1])
  }

  /** The summed weight counted by class: 1.4 per CJK unit, 0.3 per ASCII
      letter and 0.5 per other unit, the three classes covering the text. */
  lemma {:induction false} SumTenthsByClass(s: Str)
    ensures SumTenths(s) == 14 * Count(IsCJK, s) + 3 * Count(IsAsciiLetter, s) + 5 * Count(IsOtherUnit, s)
    ensures Count(IsCJK, s) + Count(IsAsciiLetter, s) + Count(IsOtherUnit, s) == |s|
    decreases |s|
  {
    if |s| > 0 {
      var init := s[..|s| - 1];
      var c := s[|s| - 1];
      SumTenthsByClass(init);
      assert s == init + [c];
      CountSnoc(IsCJK, init, c);
      CountSnoc(IsAsciiLetter, init, c);
      CountSnoc(IsOtherUnit, init, c);
    }
  }

  /** A text made of one code unit repeated weighs that many times the unit. */
  lemma {:induction false} SumTenthsUniform(s: Str, c: CodeUnit)
    requires forall i :: 0 <= i < |s| ==> s[i] == c
    ensures SumTenths(s) == |s| * WeightTenths(c)
    decreases |s|
  {
    if |s| > 0 {
      SumTenthsUniform(s[..|s| - 1], c);
    }
  }

  /** ⌈n / 10⌉ for n ≥ 0. */
  function CeilTenths(n: nat): (r: nat)
    ensures 10 * r >= n && 10 * r < n + 10
  {
    (n + 9) / 10
  }

  /** `estimateTokens` */
  function EstimateTokens(text: Str): (r: nat)
    ensures |text| == 0 ==> r == 0
    ensures 10 * r >= SumTenths(text) && 10 * r < SumTenths(text) + 10
  {
    if |text| == 0 then 0 else CeilTenths(SumTenths(text))
  }

  lemma {:induction false} SumTenthsAppend(a: Str, b: Str)
    ensures SumTenths(a + b) == SumTenths(a) + SumTenths(b)
    decreases |b|
  {
    if |b| > 0 {
      assert (a + b)[..|a + b| - 1] == a + b[..|b| - 1];
      SumTenthsAppend(a, b[..|b| - 1]);
    } else {
      assert a + b == a;
    }
  }

  lemma {:induction false} SumTenthsBounds(s: Str)
    ensures 3 * |s| <= SumTenths(s) <= 14 * |s|
    decreases |s|
  {
    if |s| > 0 {
      SumTenthsBounds(s[..|s| - 1]);
    }
  }

  /** For a text of n code units the estimate lies between ⌈0.3n⌉ (all
      ASCII letters) and ⌈1.4n⌉ (all CJK). */
  lemma EstimateBounds(text: Str)
    ensures CeilTenths(3 * |text|) <= EstimateTokens(text) <= CeilTenths(14 * |text|)
  {
    SumTenthsBounds(text);
  }

  /** Both bounds are reached: n ASCII letters estimate to ⌈0.3n⌉ and n
      Hangul syllables to ⌈1.4n⌉. */
  lemma EstimateBoundsReached(n: nat)
    ensures var letters: Str := seq(n, _ => 0x61); EstimateTokens(letters) == CeilTenths(3 * n)
    ensures var hangul: Str := seq(n, _ => 0xAC00); EstimateTokens(hangul) == CeilTenths(14 * n)
  {
    var letters: Str := seq(n, _ => 0x61);
    var hangul: Str := seq(n, _ => 0xAC00);
    SumTenthsUniform(letters, 0x61);
    SumTenthsUniform(hangul, 0xAC00);
  }

  /** The estimator's worked cases: "AB" is 1, "가나" is 3, "12" is 1 and
      the empty text is 0. */
  lemma EstimateExamples()
    ensures EstimateTokens([0x41, 0x42]) == 1
    ensures EstimateTokens([0xAC00, 0xB098]) == 3
    ensures EstimateTokens([0x31, 0x32]) == 1
    ensures EstimateTokens([]) == 0
  {
    SumTenthsUniform([0x41], 0x41);
    SumTenthsUniform([0xAC00], 0xAC00);
    SumTenthsUniform([0x31], 0x31);
    assert [0x41, 0x42][..1] == [0x41];
    assert [0xAC00, 0xB098][..1] == [0xAC00];
    assert [0x31, 0x32][..1] == [0x31];
  }

  /** Appending text never lowers the estimate, and the estimate of a
      concatenation is at most the sum of the estimates. */
  lemma EstimateMonotoneSubadditive(a: Str, b: Str)
    ensures EstimateTokens(a) <= EstimateTokens(a + b)
    ensures EstimateTokens(a + b) <= EstimateTokens(a) + EstimateTokens(b)
  {
    SumTenthsAppend(a, b);
    if |b| == 0 {
      assert a + b == a;
    }
  }

  /** Appending one code unit raises the estimate by at most two. */
  lemma EstimateStep(s: Str, c: CodeUnit)
    ensures EstimateTokens(s) <= EstimateTokens(s + [c]) <= EstimateTokens(s) + 2
  {
    assert (s + [c])[..|s|] == s;
  }

  // ---------------------------------------------------------------------
  // Messages
  // ---------------------------------------------------------------------

  /** `estimateContentPartTokens` */
  function PartTokens(part: ContentPart): (r: nat)
    ensures part.TextPart? ==> r == EstimateTokens(part.text)
    ensures part.ImageUrl? ==> r == ImageTokens
    ensures part.OtherPart? ==> r == 0
  {
    match part
    case TextPart(text) => EstimateTokens(text)
    case ImageUrl(_) => ImageTokens
    case OtherPart(_) => 0
  }

  function PartsTokens(parts: seq<ContentPart>): nat
    decreases |parts|
  {
    if |parts| == 0 then 0 else PartsTokens(parts[..|parts| - 1]) + PartTokens(parts[|parts| - 1])
  }

  function ContentTokens(content: Content): nat
  {
    match content
    case Plain(text) => EstimateTokens(text)
    case Parts(parts) => PartsTokens(parts)
  }

  /** `estimateMessagesTokens` */
  function MessagesTokens(messages: seq<Message>): (r: nat)
    ensures r >= SystemPromptTokens + MessageOverheadTokens * |messages|
    decreases |messages|
  {
    if |messages| == 0 then SystemPromptTokens
    else
      MessagesTokens(messages[..|messages| - 1])
        + MessageOverheadTokens + ContentTokens(messages[|messages| - 1].content)
  }

  /** Every image part costs exactly 1225 tokens, whatever else the
      message holds. */
  lemma {:induction false} PartsWithImage(parts: seq<ContentPart>, url: Str)
    ensures PartsTokens(parts + [ImageUrl(url)]) == PartsTokens(parts) + ImageTokens
  {
    assert (parts + [ImageUrl(url)])[..|parts|] == parts;
  }

  /** The total of a concatenated history is the sum of the parts' totals,
      counting the system prompt once. */
  lemma {:induction false} MessagesTokensAppend(a: seq<Message>, b: seq<Message>)
    ensures MessagesTokens(a + b) == MessagesTokens(a) + MessagesTokens(b) - SystemPromptTokens
    decreases |b|
  {
    if |b| == 0 {
      assert a + b == a;
    } else {
      assert (a + b)[..|a + b| - 1] == a + b[..|b| - 1];
      MessagesTokensAppend(a, b[..|b| - 1]);
    }
  }

  /** One more message raises the total by its framing plus its content:
      at least 10. */
  lemma AppendMessage(ms: seq<Message>, m: Message)
    ensures MessagesTokens(ms + [m]) == MessagesTokens(ms) + MessageOverheadTokens + ContentTokens(m.content)
    ensures MessagesTokens(ms + [m]) >= MessagesTokens(ms) + 10
  {
    MessagesTokensAppend(ms, [m]);
    assert [m][..0] == [];
  }

  // ---------------------------------------------------------------------
  // Status and percent
  // ---------------------------------------------------------------------

  datatype TokenStatus = Safe | Warning | Danger | Over

  function Rank(st: TokenStatus): nat
  {
    match st
    case Safe => 0
    case Warning => 1
    case Danger => 2
    case Over => 3
  }

  /** The bucketing of a usage ratio, as the source writes it. */
  function StatusOfRatio(ratio: real): TokenStatus
  {
    if ratio > 1.0 then Over
    else if ratio > 0.9 then Danger
    else if ratio > 0.7 then Warning
    else Safe
  }

  /** `getTokenStatus` for the limit in force. A limit of zero gives an
      infinite ratio (over) for a positive count and NaN (safe) for zero; a
      negative limit gives a non-positive ratio (safe). */
  function TokenStatusFor(tokens: nat, limit: int): (st: TokenStatus)
    ensures limit > 0 ==> st == StatusOfRatio(tokens as real / limit as real)
    ensures limit == 0 ==> (st == Over <==> tokens > 0)
    ensures limit < 0 ==> st == Safe
  {
    if limit > 0 then
      RatioComparisons(tokens, limit);
      if tokens > limit then Over
      else if 10 * tokens > 9 * limit then Danger
      else if 10 * tokens > 7 * limit then Warning
      else Safe
    else if limit == 0 && tokens > 0 then Over
    else Safe
  }

  lemma RatioComparisons(tokens: nat, limit: int)
    requires limit > 0
    ensures tokens as real / limit as real > 1.0 <==> tokens > limit
    ensures tokens as real / limit as real > 0.9 <==> 10 * tokens > 9 * limit
    ensures tokens as real / limit as real > 0.7 <==> 10 * tokens > 7 * limit
  {
    RatioAbove(tokens, limit, 1, 1);
    RatioAbove(tokens, limit, 9, 10);
    RatioAbove(tokens, limit, 7, 10);
  }

  /** tokens / limit > num / den, decided in integers. */
  lemma RatioAbove(tokens: nat, limit: int, num: nat, den: nat)
    requires limit > 0 && den > 0
    ensures tokens as real / limit as real > num as real / den as real <==> den * tokens > num * limit
  {
    var t, l := tokens as real, limit as real;
    var c := num as real / den as real;
    var ratio := t / l;
    assert ratio * l == t;
    assert c * (den as real) == num as real;
    RealScale(ratio, l, c);
    RealScale(t, den as real, c * l);
    assert (c * l) * (den as real) == (num as real) * l;
    assert (den * tokens) as real == (den as real) * t;
    assert (num * limit) as real == (num as real) * l;
  }

  lemma RealScale(x: real, l: real, c: real)
    requires l > 0.0
    ensures x > c <==> x * l > c * l
  {
    if x > c {
      assert (x - c) * l > 0.0;
    } else {
      assert (c - x) * l >= 0.0;
    }
  }

  /** With the limit fixed, a larger count never gives a lower status. */
  lemma StatusMonotone(t1: nat, t2: nat, limit: int)
    requires t1 <= t2
    ensures Rank(TokenStatusFor(t1, limit)) <= Rank(TokenStatusFor(t2, limit))
  {
  }

  /** `getTokenPercent`: Math.round(100 · tokens / limit), i.e. the integer
      nearest the percentage, halves rounded up. Unbounded above. */
  function TokenPercent(tokens: nat, limit: int): (p: int)
    requires limit > 0
    ensures (p as real) - 0.5 <= 100.0 * (tokens as real) / (limit as real) < (p as real) + 0.5
  {
    var p := (200 * tokens + limit) / (2 * limit);
    PercentRounding(tokens, limit, p);
    p
  }

  lemma PercentRounding(tokens: nat, limit: int, p: int)
    requires limit > 0 && p == (200 * tokens + limit) / (2 * limit)
    ensures (p as real) - 0.5 <= 100.0 * (tokens as real) / (limit as real) < (p as real) + 0.5
  {
    var pl := p * limit;
    assert 2 * pl <= 200 * tokens + limit < 2 * pl + 2 * limit;
    var l := limit as real;
    assert pl as real == (p as real) * l by {
      CastMul(p, limit);
    }
    var v := 100.0 * (tokens as real);
    assert ((p as real) - 0.5) * l <= v < ((p as real) + 0.5) * l;
    DivideBounds((p as real) - 0.5, v, (p as real) + 0.5, l);
  }

  lemma CastMul(a: int, b: int)
    ensures (a * b) as real == (a as real) * (b as real)
  {
  }

  /** Dividing bounds on a product by its positive factor. */
  lemma DivideBounds(lo: real, v: real, hi: real, l: real)
    requires l > 0.0 && lo * l <= v < hi * l
    ensures lo <= v / l < hi
  {
    var y := v / l;
    assert y * l == v;
    RealScale(y, l, hi);
    if y < lo {
      RealScale(lo, l, y);
      assert false;
    }
  }

  /** Over the limit means at least 100 percent. */
  lemma OverMeansFullPercent(tokens: nat, limit: int)
    requires limit > 0 && TokenStatusFor(tokens, limit) == Over
    ensures TokenPercent(tokens, limit) >= 100
  {
    DivAtLeast(200 * tokens + limit, 2 * limit, 100);
  }

  lemma DivAtLeast(a: int, d: int, k: int)
    requires d > 0 && a >= k * d
    ensures a / d >= k
  {
    var q, r := a / d, a % d;
    assert a == q * d + r && 0 <= r < d;
    if q < k {
      MulMonotone(q, k - 1, d);
      assert false;
    }
  }

  lemma MulMonotone(x: int, y: int, d: int)
    requires x <= y && d >= 0
    ensures x * d <= y * d
  {
    assert y * d - x * d == (y - x) * d;
  }
}
